=== FILE: README.md ===
# Instagram-to-HLS compression bots: a Dafny model

The repository holds two Telegram bots that take an Instagram post or reel
URL, download the video, compress it with an external encoder and publish
the result to Dropbox.

- The **streaming bot** (`compression_bot/main.py`) compresses the video
  with a size-tiered plan and, when the output came out larger than the
  input, re-encodes once. It then cuts the video into a 2-second HLS stream
  (`<id>_00000.ts`, …, `<id>.m3u8`). Each segment is uploaded and gets a
  raw shared link, and the playlist's segment lines are rewritten to those
  links before the playlist is uploaded.
- The **single-file bot** (`compression_bot/instagram_to_HLS_dropbox.py`)
  compresses with its own tier table and uploads one file. Its failure
  message is sent with a 0/2/4-second backoff. Its HTTP endpoint retries
  the whole job up to three times, sleeping 1, 3 and 5 seconds, and then
  sends one final notice.

Both bots share the same parts:

- a Dropbox access-token cache that refreshes five minutes before expiry;
- a persisted ledger of published content ids;
- a content id taken from the `/p/<seg>` or `/reel/<seg>` path segment,
  falling back to twelve hex digits of the URL's MD5.

The model is pure Dafny: immutable datatypes, functions, lemmas, and a few
methods where the source loops. Every call that leaves the process is a
parameter: the encoder's output size, the media probe's fields, the
token endpoint's reply, Dropbox's replies, and, for the job logic, an
oracle `Step -> bool` saying whether each chat, download, encode or upload
call returns or raises. A job is a trace of events: calls with their
outcome, sleeps, ledger records and local cleanups.

| module | file | what it models |
|---|---|---|
| `Base` | Base.dfy | `Option` and `Result` |
| `Text` | Text.dfy | `str.strip`, `in`, `str.replace`, `lower`, `%05d`, and line splitting for `re.MULTILINE` |
| `Credentials` | Credentials.dfy | `TokenManager` (identical in both bots) |
| `ContentId` | ContentId.dfy | `extract_video_id` |
| `Ledger` | Ledger.dfy | `DuplicateTracker` |
| `Planner` | Planner.dfy | `aggressive_compress` and `compress_video` |
| `Packaging` | Packaging.dfy | `generate_hls` arguments and file names |
| `Publish` | Publish.dfy | `upload_hls_folder`, `upload_to_dropbox` |
| `Jobs` | Jobs.dfy | both `handle_message`s, `process_instagram_url`, `background_process`, both `/process_instagram` endpoints |

Behaviour of the code that is easy to misread, which the model follows:

- **Non-monotone caps.** The streaming bot's caps are 1000, 1500, 2000 and
  1500 kbps from the smallest tier to the largest, so they do not shrink
  as size grows. The fractions and CRFs do shrink or grow monotonically.
  `Planner.MainCapsNotMonotone` shows this on concrete inputs.
- **Fallback re-encode.** Only the streaming bot has one, and it fires
  when the output is strictly larger than the input. Equal sizes keep the
  first encode.
- **Cleanup.** The single-file bot does no cleanup when it reports a
  duplicate. It cleans up twice when the success message fails after the
  ledger record.
- **Streaming bot's HTTP thread.** It never consults the ledger. It
  records and cleans up only when every step returns.
- **Retries and duplicates.** In the single-file bot's HTTP retry loop, a
  failure after the ledger record makes the next attempt report a
  duplicate. Each attempt sends its failure message once, without backoff.
- **Size tiers** compare with strict `>` (above 5, 20 and 50 MB).
- **Single-file caps.** The single-file bot's caps are 400, 500, 700 and
  600 kbps, so its largest tier is capped below the one before it as well.
  `Planner.FileCapsNotMonotone` shows this on concrete inputs.
- **Malformed token grant.** A 200 reply whose `expires_in` is not a number
  has already replaced the access token when the expiry computation
  raises. The refresh then counts as failed and the old expiry stays. A
  grant whose `access_token` is `null` counts as success and leaves no
  token.
- **Truncating writes.** The token cache and the ledger are rewritten with
  `open(path, 'w')`. A write that fails after the open has already emptied
  the file, so the next load finds nothing.

## Model

| member | source | states |
|---|---|---|
| Text.Strip | compression_bot/main.py:466 | the handler's `strip()`: the result neither starts nor ends with whitespace and is an infix of the message from which only whitespace was removed |
| Text.StripIdempotent | compression_bot/instagram_to_HLS_dropbox.py:743 | stripping an already stripped message changes nothing |
| Text.Pad5RoundTrip | compression_bot/main.py:335 | the `%05d` field of a segment name reads back as the segment number |
| Text.JoinSplit | compression_bot/main.py:412 | joining the lines the `re.MULTILINE` rewrite works on gives back the playlist text |
| Text.SplitJoin | compression_bot/main.py:412 | splitting rewritten single-line lines gives back those lines, so a rewrite keeps the line structure |
| Credentials.Load | compression_bot/main.py:93-105 | a readable cache file restores both token and expiry; a missing or unreadable one leaves the cache empty |
| Credentials.Save | compression_bot/main.py:107-118 | a successful write is exactly what a later load reads; a failed open leaves the previous file; a write that fails after the truncating open leaves a file that loads as the empty cache |
| Credentials.Refresh | compression_bot/main.py:128-152 | succeeds exactly on an HTTP 200 reply with an `access_token` key and a usable `expires_in`; any 200 reply with the key replaces the token (`null` becomes no token); on success the expiry is now + `expires_in` (default 14400 s) and the cache is saved; on failure the expiry and the file stay |
| Credentials.GetValidToken | compression_bot/main.py:154-159 | the endpoint is called exactly when the cache is expired; an unexpired token is returned as is; the call raises exactly when an expired cache cannot be refreshed; it returns no token without raising exactly when the grant's token is `null`; a granted refresh's file follows each way the write can end |
| Credentials.UnusableExpiryKeepsNewToken | compression_bot/main.py:139-152 | a 200 reply with an unusable `expires_in` raises, yet leaves the new token in the cache with the old expiry and the old file |
| Credentials.ExpiryIsPermanent | compression_bot/main.py:120-126 | with the 300 s buffer, a cache that is expired at one time stays expired later |
| Credentials.FreshTokenWindow | compression_bot/main.py:120-159 | after a refresh, the token is reused without an exchange exactly until five minutes before its lifetime ends |
| Credentials.RestartSeesRefreshedToken | compression_bot/main.py:85-118 | a restarted bot loads the token and expiry of the last successful refresh |
| ContentId.FirstMatch | compression_bot/main.py:182 | the scan finds the leftmost position where `/(p|reel)/([A-Za-z0-9_-]+)` matches, or reports that it matches nowhere |
| ContentId.ExtractVideoId | compression_bot/main.py:181-186 | the id is the greedy capture at the leftmost match, or the first 12 hex digits of the MD5 digest when nothing matches; it is always a non-empty filesystem-safe name |
| ContentId.CanonicalSegment | compression_bot/main.py:182-184 | a URL whose first marker is `/p/` or `/reel/` followed by `seg` yields `seg`, whatever prefix, query or trailing slash surrounds it |
| ContentId.SameSegmentSameId | compression_bot/instagram_to_HLS_dropbox.py:184-190 | two URLs that carry the same segment behind their first marker get the same id |
| ContentId.FallbackIsTwelveHex | compression_bot/main.py:185-186 | without a marker the id is exactly twelve lower-case hex digits |
| Ledger.Load | compression_bot/main.py:165-173 | the ledger holds exactly the listed ids; a missing file, bad JSON or a missing key gives the empty set |
| Ledger.Mark | compression_bot/main.py:191-193 | marking adds the URL's id and nothing else; afterwards every URL with that id is a duplicate and no other URL changes status |
| Ledger.Serialize | compression_bot/main.py:177 | `list(set)` holds every id of the ledger exactly once |
| Ledger.Save | compression_bot/main.py:175-179 | a successful write reloads as the same ledger; a failed open is ignored and leaves the old file; a write that fails after the truncating open reloads as the empty ledger |
| Ledger.MarkProcessed | compression_bot/instagram_to_HLS_dropbox.py:197-202 | after marking, the URL is a duplicate; the saved file reloads as the new ledger, keeps the old file when the open fails, and reloads with no duplicates when the write fails after the open |
| Ledger.MarkIdempotent | compression_bot/main.py:191-193 | marking the same URL twice is marking it once |
| Ledger.MarkCoversSameSegment | compression_bot/main.py:188-193 | publishing one URL of a post makes every other URL of that post a duplicate |
| Planner.Trunc | compression_bot/main.py:264 | Python's `int()` on a float truncates toward zero |
| Planner.TierIndex | compression_bot/main.py:269-284 | tier 0 is exactly at most 5 MB, tiers 2 and 3 exactly above 20 MB, and tier 3 exactly above 50 MB, with strict comparisons |
| Planner.TierIndexMonotone | compression_bot/instagram_to_HLS_dropbox.py:300-319 | a larger input never falls into a smaller tier |
| Planner.MainTier | compression_bot/main.py:269-284 | every tier's cap is at least the 150 kbps floor, its fraction is positive and its preset is `medium` |
| Planner.MainMeasuredKbps | compression_bot/main.py:255-266 | a nonzero reported `bit_rate // 1000` wins; otherwise the size/duration estimate rounded down; 2000 kbps when the duration is not positive |
| Planner.Clamp | compression_bot/main.py:270-286 | the target always lies between the 150 kbps floor and the tier cap |
| Planner.ClampCases | compression_bot/main.py:270-286 | the target is the cap above it, the floor below it, and rounds down in between |
| Planner.ClampMonotone | compression_bot/main.py:270-286 | a higher scaled bitrate never gives a lower target |
| Planner.MainTarget | compression_bot/main.py:270-286 | the streaming bot's target lies between the floor and the tier's cap |
| Planner.MainTargetCases | compression_bot/main.py:270-286 | the target is the cap when the scaled bitrate reaches it, the floor below 150, and the scaled bitrate rounded down in between |
| Planner.MainParams | compression_bot/main.py:290-300 | maxrate is `int(1.2 t)` and bufsize is `2 t`, so bitrate ≤ maxrate ≤ bufsize; the CRF and preset come from the tier and audio is 96 kbps |
| Planner.MainPlan | compression_bot/main.py:240-300 | planning fails exactly when the duration does not parse; otherwise the bitrate lies within the tier's floor and cap with the tier's CRF |
| Planner.FallbackParams | compression_bot/main.py:310-320 | the fallback bitrate is `max(150, int(0.6 t))`: exactly 150 when `0.6 t` is below 151, otherwise `0.6 t` rounded down; it is strictly lower than a target above 150 and is capped at itself with a doubled buffer, the `veryfast` preset, no CRF and 64 kbps audio |
| Planner.AggressiveCompress | compression_bot/main.py:240-326 | the call succeeds exactly when the duration parses and the first encode succeeds; the first encode is the streaming plan; the fallback runs exactly when the output is larger than the input, with the fallback arguments of the first encode's bitrate, which is no higher than it |
| Planner.MainTiersTightenWithSize | compression_bot/main.py:269-284 | larger inputs get a smaller or equal fraction and a higher or equal CRF |
| Planner.MainTargetMonotone | compression_bot/main.py:270-286 | within a tier, a higher measured bitrate never lowers the target |
| Planner.TargetMonotone | compression_bot/main.py:270-286 | for any tier with a non-negative fraction, the target is monotone in the measured bitrate |
| Planner.MainCapsNotMonotone | compression_bot/main.py:269-284 | with one probe, inputs of 10, 30 and 60 MiB are planned at 1500, 2000 and 1500 kbps |
| Planner.EqualSizeKeepsFirstEncode | compression_bot/main.py:310 | an output of exactly the input's size does not trigger the fallback |
| Planner.FileTier | compression_bot/instagram_to_HLS_dropbox.py:300-319 | every tier's cap of the single-file bot is at least the floor |
| Planner.FileMeasuredKbps | compression_bot/instagram_to_HLS_dropbox.py:291-295 | a non-empty `bit_rate` is used as `int(b) // 1000` and raises when it does not parse; otherwise the estimate, or 1000 when the duration is not positive |
| Planner.FileTarget | compression_bot/instagram_to_HLS_dropbox.py:300-322 | the float target lies between 150 and the tier cap; it is the cap when the scaled bitrate reaches the cap, 150 when the scaled bitrate is at most 150, and the scaled bitrate itself in between |
| Planner.FileParams | compression_bot/instagram_to_HLS_dropbox.py:330-340 | bitrate, maxrate and bufsize are `t`, `1.1 t` and `1.5 t` rounded down, so bitrate ≤ maxrate ≤ bufsize; the tier's CRF and preset, and 128 kbps audio |
| Planner.FileRateCases | compression_bot/instagram_to_HLS_dropbox.py:300-335 | for a measured bitrate and a tier, the bitrate `compress_video` encodes with is the cap when the scaled bitrate reaches it, 150 when the scaled bitrate is at most 150, and the scaled bitrate rounded down in between |
| Planner.CompressVideo | compression_bot/instagram_to_HLS_dropbox.py:277-376 | the call succeeds exactly when the duration and bitrate parse and the encode succeeds; the bitrate lies within the tier's floor and cap; there is no fallback pass |
| Planner.FileTiersTightenWithSize | compression_bot/instagram_to_HLS_dropbox.py:300-319 | larger inputs get a smaller or equal fraction and a higher or equal CRF |
| Planner.FileCapsNotMonotone | compression_bot/instagram_to_HLS_dropbox.py:300-322 | with one probe, inputs of 10, 30 and 60 MiB are planned at 500, 700 and 600 kbps |
| Planner.FileSubKilobitRateHitsFloor | compression_bot/instagram_to_HLS_dropbox.py:291-322 | a reported bitrate under 1000 bps measures as 0 kbps and is planned at the 150 kbps floor |
| Packaging.SegmentName | compression_bot/main.py:335 | a segment name is `<id>_` followed by the number and ends in `.ts` |
| Packaging.SegmentNumber | compression_bot/main.py:335 | only names of the segment shape parse to a number |
| Packaging.SegmentNumberRoundTrip | compression_bot/main.py:335 | the number reads back from every segment name |
| Packaging.SegmentNamesDistinct | compression_bot/main.py:335 | different segment numbers give different file names |
| Packaging.Segments | compression_bot/main.py:335-347 | the `i`-th file of an `n`-segment stream reads back as segment `i`; every file reads back as a segment below `n`; no two files share a name |
| Packaging.SegmentsDistinct | compression_bot/main.py:335-347 | no two files of a packaged stream share a name |
| Publish.RemotePath | compression_bot/main.py:362-371 | every remote path lies under `/hls/<id>/` and gives back the file name after that folder |
| Publish.RawLinkOfSharedLink | compression_bot/main.py:382 | a shared link `<base>?dl=0` becomes `<base>?raw=1` |
| Publish.RawLinkKeepsLine | compression_bot/main.py:382 | the `?raw=1` rewrite introduces no line break |
| Publish.ResolveSegmentLink | compression_bot/main.py:379-391 | a segment gets a raw link from a new link, or from the first listed link after "already exists"; other link errors and empty listings leave it unlinked; a failing listing aborts the upload |
| Publish.UploadToDropbox | compression_bot/instagram_to_HLS_dropbox.py:378-409 | the upload returns a link exactly when it uploaded and created a link or found one listed after "already exists", without the `?dl=0` rewrite; otherwise it raises |
| Publish.LinkMap | compression_bot/main.py:366-391 | the map is undefined exactly when some segment raises; otherwise it holds exactly the linked segments, each with its resolved link |
| Publish.LinkMapIsSingleLine | compression_bot/main.py:379-391 | every link in the map is one line when the replies were |
| Publish.RewriteKeepsLines | compression_bot/main.py:403-412 | the rewrite keeps the number and order of lines; a segment line with a link becomes that link; comments, tags, blanks and unlinked segments stay unchanged |
| Publish.RewriteWithoutLinksIsIdentity | compression_bot/main.py:403-412 | with no links the playlist is unchanged |
| Publish.SegmentNameIsSegmentLine | compression_bot/main.py:335 | the segment files the encoder is told to write are exactly the lines the rewrite looks for |
| Publish.RemotePaths | compression_bot/main.py:362-371 | each remote path lies under `/hls/<id>/` and gives back its file's name, so distinct files get distinct remote paths |
| Publish.UploadHlsFolder | compression_bot/main.py:356-423 | the upload completes exactly when the folder exists, no segment raises and the playlist upload succeeds; it then uploads every segment and then the rewritten playlist |
| Publish.UploadsStayInFolder | compression_bot/main.py:362-401 | every file of a published stream lands under `/hls/<id>/` |
| Publish.PublishedPlaylistLinksSegments | compression_bot/main.py:356-423 | in the uploaded playlist, each line naming a linked segment of the stream is replaced by that segment's link |
| Jobs.RunSteps | compression_bot/main.py:479-494 | steps run in order and stop at the first that raises; the run completes exactly when every step returns |
| Jobs.RunIsPrefix | compression_bot/main.py:479-494 | a run calls nothing but its own steps |
| Jobs.RunHoldsOnlyCalls | compression_bot/main.py:479-494 | a run has no sleeps, ledger records or cleanups, and no call outside its steps |
| Jobs.MainTry | compression_bot/main.py:473-502 | a known id is reported as a duplicate and does no work; otherwise the id is recorded exactly when every step returns, together with the upload |
| Jobs.MainPublish | compression_bot/main.py:479-502 | for new content, the id is recorded exactly when the whole pipeline returns |
| Jobs.PublishRun | compression_bot/main.py:479-505 | the id is recorded exactly when all steps return, and exactly when the upload returned |
| Jobs.HandleMessage | compression_bot/main.py:465-509 | a message without `instagram.com` gets only the reply; otherwise, if the status message returns, it opens the trace and exactly one cleanup closes it, and if it raises, nothing else happens; the ledger changes exactly when the upload returned; a duplicate does no work |
| Jobs.PublishRunOrder | compression_bot/main.py:492-499 | every ledger record comes directly after the folder upload returned and directly before the success message |
| Jobs.MainTryOrder | compression_bot/main.py:473-499 | in a processing try, the id is recorded only directly after the returned upload and directly before the success message |
| Jobs.MarkFollowsUpload | compression_bot/main.py:465-509 | in the streaming bot's handler, content is recorded only directly after the folder upload returned and directly before the success message |
| Jobs.Announced | compression_bot/main.py:471-509 | the status message comes first and the `finally` cleanup last and only once |
| Jobs.MarkedIffPipelineSucceeds | compression_bot/main.py:473-498 | new content is recorded exactly when download, compress, package, upload and their status edits all return |
| Jobs.RedeliveryDoesNoWork | compression_bot/main.py:474-477 | once published, the same content sent again does no work and leaves the ledger unchanged |
| Jobs.NoticeTries | compression_bot/instagram_to_HLS_dropbox.py:564-573 | the failure message is tried at most three times, stopping at the first try that returns |
| Jobs.NoticeLoop | compression_bot/instagram_to_HLS_dropbox.py:564-573 | try `j` sleeps `2 j` seconds and then sends |
| Jobs.NoticeDeliveredIffSomeTryWorks | compression_bot/instagram_to_HLS_dropbox.py:564-573 | the message is delivered exactly when one of the three tries would return |
| Jobs.NoticeLoopIsNotices | compression_bot/instagram_to_HLS_dropbox.py:564-573 | the failure-message loop only sleeps and sends |
| Jobs.NoticeLoopOpens | compression_bot/instagram_to_HLS_dropbox.py:565-567 | the first try sleeps 0 seconds and then sends |
| Jobs.SingleNotice | compression_bot/instagram_to_HLS_dropbox.py:904-907 | the HTTP path sends its failure message once |
| Jobs.RecoverEffects | compression_bot/instagram_to_HLS_dropbox.py:556-582 | the `except` branch fails the job and keeps the ledger; it keeps what happened before, ends with the failure message and one more cleanup, and adds no record, final notice or upload; its only sleeps are the message's backoff |
| Jobs.Attempt | compression_bot/instagram_to_HLS_dropbox.py:479-555 | an attempt reports a duplicate exactly for a known id; it completes exactly when the pipeline and the success message return; the id is recorded exactly when the pipeline returns |
| Jobs.AttemptTrace | compression_bot/instagram_to_HLS_dropbox.py:479-582 | an attempt records the id at most once and together with the upload; it cleans up once, not at all after a reported duplicate, or twice after a late failure; a failure ends with the message and a cleanup |
| Jobs.AttemptQuiet | compression_bot/instagram_to_HLS_dropbox.py:818-915 | an attempt adds no sleeps and no final notice of its own |
| Jobs.PublishAttempt | compression_bot/instagram_to_HLS_dropbox.py:491-555 | for new content, the attempt completes exactly when the pipeline and the success message return, and records the id exactly when the pipeline returns |
| Jobs.PublishAttemptTrace | compression_bot/instagram_to_HLS_dropbox.py:491-582 | the id is recorded at most once; a failure after the record cleans up twice |
| Jobs.PublishAttemptOrder | compression_bot/instagram_to_HLS_dropbox.py:516-549 | the id is recorded directly after the upload returned, followed at once by the cleanup and the success message |
| Jobs.AttemptOrder | compression_bot/instagram_to_HLS_dropbox.py:479-549 | in every attempt of the single-file bot, a ledger record directly follows the returned upload and is followed at once by the cleanup and the success message |
| Jobs.FailedRunTrace | compression_bot/instagram_to_HLS_dropbox.py:556-582 | a failed pipeline records nothing, cleans up once and ends with the recovery |
| Jobs.CompletedRunTrace | compression_bot/instagram_to_HLS_dropbox.py:517-582 | a completed pipeline records the id once; a failing success message adds a second cleanup |
| Jobs.RecoverTrace | compression_bot/instagram_to_HLS_dropbox.py:556-582 | the recovery adds exactly one cleanup and the notices' sleeps, and nothing else |
| Jobs.ProcessUrl | compression_bot/instagram_to_HLS_dropbox.py:473-582 | the ledger changes exactly when the upload returned; completion means a new id with every step returning; a failure ends with the whole 0/2/4-second failure-message loop and then a cleanup |
| Jobs.RecoveryHoldsNotices | compression_bot/instagram_to_HLS_dropbox.py:556-582 | a trace that ends in the recovery holds every notice and ends with the cleanup |
| Jobs.HandleFileMessage | compression_bot/instagram_to_HLS_dropbox.py:741-757 | a message is turned away with only the reply exactly when its host lacks `instagram.com`; otherwise the stripped URL is processed |
| Jobs.ScheduleShape | compression_bot/instagram_to_HLS_dropbox.py:798-801 | the sleeps are odd numbers of seconds above `2 k`, each two seconds longer than the one before; a job's three attempts sleep 1, 3 and 5 seconds |
| Jobs.ExtendTrace | compression_bot/instagram_to_HLS_dropbox.py:798-818 | each pass of the loop adds its own sleep and nothing else to the schedule |
| Jobs.FinalNoticeTrace | compression_bot/instagram_to_HLS_dropbox.py:939-972 | after three failures the sleeps were 1, 3 and 5 s and exactly one final notice is sent |
| Jobs.ProcessInThread | compression_bot/instagram_to_HLS_dropbox.py:818-915 | one HTTP attempt: a duplicate is reported for a known id; it completes exactly when the pipeline and success message return; a failure ends with one notice and a cleanup |
| Jobs.RetryAttempt | compression_bot/instagram_to_HLS_dropbox.py:798-927 | one pass keeps the ledger equation and the sleep schedule; its outcome is the attempt's outcome for whether the id was known; the id is known afterwards exactly when it was before or the pipeline returned; a late failure leaves the id recorded |
| Jobs.AttemptOutcome | compression_bot/instagram_to_HLS_dropbox.py:818-915 | an HTTP attempt reports a duplicate exactly for a known id whose report returns, and completes exactly for a new id whose pipeline and success message return |
| Jobs.KnownBeforeMeansEarlierPipeline | compression_bot/instagram_to_HLS_dropbox.py:794-915 | before attempt `j`, the id is known exactly when it was in the ledger or an earlier attempt's pipeline returned |
| Jobs.RetryOutcomesUnique | compression_bot/instagram_to_HLS_dropbox.py:794-927 | the oracles fix how many attempts the loop makes and how each ends |
| Jobs.FirstSuccessStops | compression_bot/instagram_to_HLS_dropbox.py:794-927 | the loop stops at the first attempt that does not fail |
| Jobs.RetryExamples | compression_bot/instagram_to_HLS_dropbox.py:794-927 | a late failure on the first try makes the second try report a duplicate and stop; failures on the first two tries and success on the third give three attempts, the last completed |
| Jobs.RetryLoopCore | compression_bot/instagram_to_HLS_dropbox.py:794-974 | the loop's attempts and outcomes, sleeps, final notice and ledger effects, without the examples |
| Jobs.RetryLoop | compression_bot/instagram_to_HLS_dropbox.py:794-974 | the loop makes one attempt per sleep of 1, 3, 5 s, each ending as its oracle says, and stops at the first that does not fail or after the third; the job ends as its last attempt; the ledger gains the id exactly when it is known after the last attempt, and records it at most once; all failing ends with one final notice; a late failure is reported as a duplicate next time; success on the third try is completed |
| Jobs.Background | compression_bot/instagram_to_HLS_dropbox.py:794-974 | the ledger gains the URL's id exactly when it was recorded; a completed job leaves the URL a duplicate; a known URL leaves the ledger unchanged |
| Jobs.FileEndpoint | compression_bot/instagram_to_HLS_dropbox.py:771-792 | 400 for a missing or empty `url` or a non-Instagram host; 500 without an admin chat; otherwise 202 |
| Jobs.EndpointAgreesWithHandler | compression_bot/instagram_to_HLS_dropbox.py:781-785 | the endpoint accepts a URL exactly when the Telegram handler would process it |
| Jobs.AttemptStartsWithCheck | compression_bot/instagram_to_HLS_dropbox.py:479-491 | every attempt opens with the duplicate report or the pipeline |
| Jobs.MainEndpoint | compression_bot/main.py:522-527 | 202 exactly for a non-empty `url` containing `instagram.com`; otherwise 400 |
| Jobs.MainBackground | compression_bot/main.py:529-541 | the thread records and cleans up exactly when every step returns |
| Jobs.MainBackgroundIgnoresLedger | compression_bot/main.py:529-541 | the HTTP path of the streaming bot does the same work whatever the ledger holds |

## Left out

- Downloading (yt-dlp and browser cookies), the encoder and media probe processes, the Dropbox SDK, and the Telegram client are external. Their results are parameters or oracle outcomes.
- Threads, `asyncio` event loops, Flask, and concurrent jobs are not modelled. The ledger's check-then-record race between concurrent jobs is therefore not modelled either.
- Sleeps are recorded as `Wait(seconds)` events; no time passes.
- MD5 is an uninterpreted function returning 32 lower-case hex digits.
- `urlparse(...).netloc` is a parameter of the single-file bot's handler and endpoint.
- Python floats are exact reals, so float rounding in the planners is not modelled.
- `str.lower` is modelled for ASCII letters only; other Unicode case mappings are not.
- The token cache's timestamps are whole seconds. A cache file whose fields parse only partly is treated as one record.
- The `dbx` property's re-authentication on expiry is not modelled. It is the same `get_valid_token` call.
- Message texts, Markdown formatting and the reported file size are left out. Only whether each message is sent matters.
- The compression-ratio warning, the input-file deletion in `compress_video`, and the local directory handling in `generate_hls` are left out. They only log or touch local files.
- The fixed encoder arguments of `generate_hls` (854 px wide, `veryfast`, 400 kbps video, 800 kbit buffer, 64 kbps audio, 2 s segments) are left out. They are passed to the external encoder unchanged and decide nothing in the bots.
- The public playlist address (`WORKER_BASE` + `/hls/<id>.m3u8`) and the single-file bot's remote path `/<file name>` are left out. They only appear in message texts and in calls to the external storage client.
- UploadToDropbox: any link error whose text holds `shared_link_already_exists` reuses the listed link. The source does this only for a Dropbox `ApiError` with that text, because the model does not tell error classes apart.
- The streaming bot hands every step and its cleanup to `context.application.run_in_executor`. The model assumes this dispatch runs the call. Whether the Telegram library's `Application` offers that method is outside the repository; if it does not, every step raises and the cleanup's error is swallowed, so no cleanup takes place. A `Cleaned` event records that the cleanup was dispatched.
- `/stats`, `/status`, `/start`, `/help`, `/health`, `get_ip`, `notify_ip`, environment bootstrap and `setup.py` are not part of this model.
- Jobs.ProcessUrl: each step's success is an oracle outcome. The job logic is not linked to the planner's or publisher's results, so an encoder failure is the `Compress` step raising.
- Jobs.Background: states only the ledger effects and the single record. The trace properties are stated on Jobs.RetryLoop, which it calls.

=== FILE: Base.dfy ===
/** Small shared vocabulary: an optional value and a success-or-error value. */
module Base {

  /** A value that may be absent, standing for Python's `None`. */
  datatype Option<+T> = None | Some(value: T) {

    /** The wrapped value, or `default` when absent. */
    function GetOr(default: T): T {
      match this
      case Some(v) => v
      case None => default
    }
  }

  /** The value of a call that either returns or raises. */
  datatype Result<+T, +E> = Ok(value: T) | Err(error: E)

  /** How a whole-file rewrite (`open(path, 'w')` or `write_text`) ended:
      written; the open failed, so the file is untouched; or the write failed
      after the open had already truncated the file. */
  datatype WriteOutcome = Written | OpenFailed | WriteFailed
}

=== FILE: ContentId.dfy ===
/** `extract_video_id`: the id captured by the pattern
    `/(p|reel)/([A-Za-z0-9_-]+)` at its leftmost match, or else the first
    twelve hex digits of the URL's MD5 digest. The regex search is written
    as a scan; the digest is a parameter. */
module ContentId {
  import opened Base
  import opened Text

  /** Characters of the class `[A-Za-z0-9_-]`. */
  predicate IdChar(c: char) {
    ('A' <= c <= 'Z') || ('a' <= c <= 'z') || ('0' <= c <= '9') || c == '_' || c == '-'
  }

  /** Filesystem-safe: non-empty and made of id characters only. */
  predicate SafeName(s: string) {
    |s| > 0 && forall i :: 0 <= i < |s| ==> IdChar(s[i])
  }

  predicate LowerHex(c: char) {
    ('0' <= c <= '9') || ('a' <= c <= 'f')
  }

  predicate IsHexDigest(d: string) {
    |d| == 32 && forall i :: 0 <= i < |d| ==> LowerHex(d[i])
  }

  /** A `hexdigest()` of MD5: 32 lower-case hex digits. */
  type HexDigest = d: string | IsHexDigest(d) witness "00000000000000000000000000000000"

  /** MD5 of a URL's UTF-8 encoding, left uninterpreted. */
  type Digest = string -> HexDigest

  /** Length of the fallback id. */
  const FallbackLength := 12

  /** Length of the run of id characters starting at `i`. */
  function RunLength(s: string, i: nat): (n: nat)
    requires i <= |s|
    ensures i + n <= |s|
    ensures forall j :: i <= j < i + n ==> IdChar(s[j])
    ensures i + n < |s| ==> !IdChar(s[i + n])
    decreases |s| - i
  {
    if i < |s| && IdChar(s[i]) then 1 + RunLength(s, i + 1) else 0
  }

  /** The group-2 capture of a match of the pattern starting at `i`, if the
      pattern matches there (`[...]+` is greedy, so the whole run). */
  function MatchAt(s: string, i: nat): (m: Option<string>)
    requires i <= |s|
    ensures m.Some? ==> SafeName(m.value)
  {
    if OccursAt(s, i, "/p/") && RunLength(s, i + 3) > 0 then
      Some(s[i + 3..i + 3 + RunLength(s, i + 3)])
    else if OccursAt(s, i, "/reel/") && RunLength(s, i + 6) > 0 then
      Some(s[i + 6..i + 6 + RunLength(s, i + 6)])
    else
      None
  }

  /** `k` is where `re.search` finds its match: the pattern matches at `k`
      and nowhere before. */
  predicate LeftmostMatch(s: string, k: nat) {
    k < |s| && MatchAt(s, k).Some? && forall j :: 0 <= j < k ==> MatchAt(s, j).None?
  }

  /** The scan: the first position at or after `i` where the pattern matches. */
  function FirstMatch(s: string, i: nat): (k: Option<nat>)
    requires i <= |s|
    ensures k.Some? ==> i <= k.value < |s| && MatchAt(s, k.value).Some?
    ensures k.Some? ==> forall j :: i <= j < k.value ==> MatchAt(s, j).None?
    ensures k.None? ==> forall j :: i <= j <= |s| ==> MatchAt(s, j).None?
    decreases |s| - i
  {
    if i == |s| then None
    else if MatchAt(s, i).Some? then Some(i)
    else FirstMatch(s, i + 1)
  }

  /** `extract_video_id`. */
  function ExtractVideoId(url: string, md5: Digest): (id: string)
    ensures SafeName(id)
    ensures forall k :: 0 <= k < |url| && LeftmostMatch(url, k) ==> id == MatchAt(url, k).value
    ensures (forall k :: 0 <= k <= |url| ==> MatchAt(url, k).None?) ==>
              id == md5(url)[..FallbackLength] && forall i :: 0 <= i < |id| ==> LowerHex(id[i])
  {
    match FirstMatch(url, 0)
    case Some(k) => MatchAt(url, k).value
    case None => md5(url)[..FallbackLength]
  }

  /** The run of id characters in `pre + seg + rest` after `pre` is exactly
      `seg` when `rest` does not continue it. */
  lemma {:induction false} RunOfSegment(s: string, i: nat, seg: string)
    requires i + |seg| <= |s| && s[i..i + |seg|] == seg
    requires forall j :: 0 <= j < |seg| ==> IdChar(seg[j])
    requires i + |seg| == |s| || !IdChar(s[i + |seg|])
    ensures RunLength(s, i) == |seg|
    decreases |seg|
  {
    if |seg| > 0 {
      assert s[i] == seg[0];
      assert s[i + 1..i + 1 + |seg[1..]|] == seg[1..];
      RunOfSegment(s, i + 1, seg[1..]);
    }
  }

  /** A URL whose first marker is `/p/` or `/reel/` followed by the segment
      `seg` yields `seg`, whatever precedes the marker or follows the segment
      (a query string, a trailing slash). */
  lemma CanonicalSegment(pre: string, marker: string, seg: string, rest: string, md5: Digest)
    requires marker == "/p/" || marker == "/reel/"
    requires SafeName(seg)
    requires |rest| == 0 || !IdChar(rest[0])
    requires forall j :: 0 <= j < |pre| ==> MatchAt(pre + marker + seg + rest, j).None?
    ensures ExtractVideoId(pre + marker + seg + rest, md5) == seg
  {
    var url := pre + marker + seg + rest;
    var i := |pre| + |marker|;
    assert url[i..i + |seg|] == seg;
    assert i + |seg| < |url| ==> url[i + |seg|] == rest[0];
    RunOfSegment(url, i, seg);
    assert url[|pre|..|pre| + |marker|] == marker;
    if marker == "/p/" {
      assert OccursAt(url, |pre|, "/p/");
    } else {
      assert !OccursAt(url, |pre|, "/p/") by { assert url[|pre| + 1] == 'r'; }
      assert OccursAt(url, |pre|, "/reel/");
    }
    assert MatchAt(url, |pre|) == Some(seg);
    assert LeftmostMatch(url, |pre|);
  }

  /** Two URLs that carry the same post or reel segment behind their first
      marker get the same id. */
  lemma SameSegmentSameId(pre1: string, m1: string, rest1: string,
                          pre2: string, m2: string, rest2: string,
                          seg: string, md5: Digest)
    requires m1 == "/p/" || m1 == "/reel/"
    requires m2 == "/p/" || m2 == "/reel/"
    requires SafeName(seg)
    requires |rest1| == 0 || !IdChar(rest1[0])
    requires |rest2| == 0 || !IdChar(rest2[0])
    requires forall j :: 0 <= j < |pre1| ==> MatchAt(pre1 + m1 + seg + rest1, j).None?
    requires forall j :: 0 <= j < |pre2| ==> MatchAt(pre2 + m2 + seg + rest2, j).None?
    ensures ExtractVideoId(pre1 + m1 + seg + rest1, md5) == ExtractVideoId(pre2 + m2 + seg + rest2, md5)
  {
    CanonicalSegment(pre1, m1, seg, rest1, md5);
    CanonicalSegment(pre2, m2, seg, rest2, md5);
  }

  /** Without a marker the id is exactly twelve lower-case hex digits. */
  lemma FallbackIsTwelveHex(url: string, md5: Digest)
    requires forall k :: 0 <= k <= |url| ==> MatchAt(url, k).None?
    ensures var id := ExtractVideoId(url, md5);
            |id| == FallbackLength && forall i :: 0 <= i < |id| ==> LowerHex(id[i])
  {
  }
}

=== FILE: Credentials.dfy ===
/** The storage backend's access-token cache (`TokenManager`, identical in
    both bot variants). Time is whole seconds; the token endpoint is an
    oracle reply for the refresh-token grant of section 6 of RFC 6749, whose
    `expires_in` member is the one of section 5.1. */
module Credentials {
  import opened Base

  /** Tokens are treated as expired this many seconds before their expiry. */
  const ExpiryBufferSeconds: int := 300
  /** Lifetime assumed when the token response omits `expires_in`. */
  const DefaultLifetimeSeconds: int := 14400

  /** The in-memory cache: `access_token` and `token_expires_at`. */
  datatype TokenCache = TokenCache(accessToken: Option<string>, expiresAt: Option<int>)

  /** The cache file `{access_token, expires_at}`: absent, unreadable, or a record. */
  datatype CacheFile = NoFile | Unreadable | Record(accessToken: Option<string>, expiresAt: Option<int>)

  /** The `access_token` member of a token response: missing (reading it
      raises `KeyError`), JSON `null`, or a string. */
  datatype TokenField = TokenMissing | TokenNull | Token(value: string)

  /** The `expires_in` member: missing (the default applies), a whole number
      of seconds, or a value `timedelta` rejects (`null`, a string). */
  datatype ExpiresField = ExpiresMissing | Expires(seconds: int) | ExpiresInvalid

  /** The JSON body of a token response. */
  datatype Grant = Grant(accessToken: TokenField, expiresIn: ExpiresField)

  /** What the token endpoint did: an HTTP status with a body that was
      readable as a JSON object or not, or a transport failure. */
  datatype RefreshReply = Response(status: int, body: Option<Grant>) | TransportError

  /** Outcome of `get_valid_token`: whether it raised, the token it returned
      otherwise, the cache and file afterwards, and whether the endpoint was
      called. */
  datatype TokenOutcome = TokenOutcome(raised: bool, token: Option<string>, cache: TokenCache, file: CacheFile, exchanged: bool)

  const Empty := TokenCache(None, None)

  /** `load_cached_token` at construction. */
  function Load(f: CacheFile): (c: TokenCache)
    ensures f.Record? ==> c.accessToken == f.accessToken && c.expiresAt == f.expiresAt
    ensures !f.Record? ==> c == Empty
  {
    match f
    case Record(t, e) => TokenCache(t, e)
    case _ => Empty
  }

  /** `save_token_cache`: a failed open leaves the old file in place; a write
      that fails after the open truncated the file leaves one that does not
      parse. */
  function Save(c: TokenCache, previous: CacheFile, w: WriteOutcome): (f: CacheFile)
    ensures w == Written ==> Load(f) == c
    ensures w == OpenFailed ==> f == previous
    ensures w == WriteFailed ==> f == Unreadable && Load(f) == Empty
  {
    match w
    case Written => Record(c.accessToken, c.expiresAt)
    case OpenFailed => previous
    case WriteFailed => Unreadable
  }

  /** `is_token_expired`. */
  predicate IsExpired(c: TokenCache, now: int) {
    c.accessToken.None? || c.accessToken.value == "" || c.expiresAt.None? ||
    now >= c.expiresAt.value - ExpiryBufferSeconds
  }

  /** The refresh got as far as assigning `self.access_token`: status 200, a
      JSON object, and an `access_token` member. */
  predicate TokenAssigned(reply: RefreshReply) {
    reply.Response? && reply.status == 200 && reply.body.Some? && !reply.body.value.accessToken.TokenMissing?
  }

  /** The refresh returns `True`: the token was assigned and `expires_in`
      was usable. */
  predicate Granted(reply: RefreshReply) {
    TokenAssigned(reply) && !reply.body.value.expiresIn.ExpiresInvalid?
  }

  /** The value assigned to `self.access_token`. */
  function NewToken(g: Grant): (t: Option<string>)
    requires !g.accessToken.TokenMissing?
    ensures t.None? <==> g.accessToken.TokenNull?
  {
    if g.accessToken.TokenNull? then None else Some(g.accessToken.value)
  }

  function Lifetime(g: Grant): int
    requires !g.expiresIn.ExpiresInvalid?
  {
    if g.expiresIn.Expires? then g.expiresIn.seconds else DefaultLifetimeSeconds
  }

  /** `refresh_access_token`: on a grant, replace the token and expiry and
      persist them. A reply that is not a 200 JSON object with an
      `access_token` changes nothing; one whose `expires_in` is unusable
      has already replaced the token, keeps the old expiry, saves nothing
      and reports failure. */
  function Refresh(c: TokenCache, f: CacheFile, now: int, reply: RefreshReply, w: WriteOutcome): (r: (bool, TokenCache, CacheFile))
    ensures r.0 <==> Granted(reply)
    ensures !TokenAssigned(reply) ==> r.1 == c && r.2 == f
    ensures TokenAssigned(reply) ==> r.1.accessToken == NewToken(reply.body.value)
    ensures !r.0 ==> r.1.expiresAt == c.expiresAt && r.2 == f
    ensures r.0 ==> r.1.expiresAt == Some(now + Lifetime(reply.body.value))
    ensures r.0 ==> r.2 == Save(r.1, f, w)
    ensures r.0 && w == Written ==> Load(r.2) == r.1
  {
    if !TokenAssigned(reply) then (false, c, f)
    else
      var g := reply.body.value;
      if g.expiresIn.ExpiresInvalid? then (false, TokenCache(NewToken(g), c.expiresAt), f)
      else
        var c' := TokenCache(NewToken(g), Some(now + Lifetime(g)));
        (true, c', Save(c', f, w))
  }

  /** `get_valid_token`: refresh only when expired, raise when the refresh
      fails, and otherwise return whatever token the cache then holds. */
  function GetValidToken(c: TokenCache, f: CacheFile, now: int, reply: RefreshReply, w: WriteOutcome): (r: TokenOutcome)
    ensures r.exchanged <==> IsExpired(c, now)
    ensures !IsExpired(c, now) ==>
              !r.raised && r.token == c.accessToken && r.token.Some? && r.cache == c && r.file == f
    ensures r.raised <==> IsExpired(c, now) && !Granted(reply)
    ensures r.raised ==> r.token.None? && r.file == f && r.cache.expiresAt == c.expiresAt
    ensures !r.raised ==> r.token == r.cache.accessToken
    ensures !r.raised && r.token.None? <==>
              IsExpired(c, now) && Granted(reply) && reply.body.value.accessToken.TokenNull?
    ensures IsExpired(c, now) && Granted(reply) ==>
              r.token == NewToken(reply.body.value) &&
              r.cache.expiresAt == Some(now + Lifetime(reply.body.value)) &&
              (w == Written ==> Load(r.file) == r.cache) &&
              (w == OpenFailed ==> r.file == f) &&
              (w == WriteFailed ==> r.file == Unreadable)
  {
    if IsExpired(c, now) then
      var (ok, c', f') := Refresh(c, f, now, reply, w);
      if ok then TokenOutcome(false, c'.accessToken, c', f', true)
      else TokenOutcome(true, None, c', f', true)
    else
      TokenOutcome(false, c.accessToken, c, f, false)
  }

  /** A reply whose `expires_in` is unusable still replaces the token: the
      call raises, yet the cache holds the new token beside the old expiry,
      and the file is not rewritten. */
  lemma UnusableExpiryKeepsNewToken(c: TokenCache, f: CacheFile, now: int, reply: RefreshReply, w: WriteOutcome)
    requires IsExpired(c, now) && TokenAssigned(reply) && reply.body.value.expiresIn.ExpiresInvalid?
    ensures var r := GetValidToken(c, f, now, reply, w);
            r.raised && r.cache == TokenCache(NewToken(reply.body.value), c.expiresAt) && r.file == f
  {
  }

  /** Once expired, a cache stays expired as time passes. */
  lemma ExpiryIsPermanent(c: TokenCache, t1: int, t2: int)
    requires t1 <= t2 && IsExpired(c, t1)
    ensures IsExpired(c, t2)
  {
  }

  /** A freshly granted non-empty token is used without another exchange
      until five minutes before its lifetime ends, and not after. */
  lemma FreshTokenWindow(c: TokenCache, f: CacheFile, now: int, reply: RefreshReply, w: WriteOutcome, later: int, reply2: RefreshReply)
    requires IsExpired(c, now) && Granted(reply) && reply.body.value.accessToken.Token?
    requires reply.body.value.accessToken.value != ""
    requires now <= later
    ensures var r := GetValidToken(c, f, now, reply, w);
            var r2 := GetValidToken(r.cache, r.file, later, reply2, w);
            !r2.exchanged <==> later < now + Lifetime(reply.body.value) - ExpiryBufferSeconds
  {
  }

  /** A cache written after a successful refresh is what a restarted bot loads. */
  lemma RestartSeesRefreshedToken(c: TokenCache, f: CacheFile, now: int, reply: RefreshReply)
    requires IsExpired(c, now) && Granted(reply)
    ensures var r := GetValidToken(c, f, now, reply, Written);
            Load(r.file) == r.cache && r.cache.accessToken == r.token
  {
  }
}

=== FILE: Jobs.dfy ===
/** The job orchestration of both bots: the Telegram message handlers, the
    single-file bot's `process_instagram_url` with its error-notice backoff,
    its HTTP background retry loop, and both HTTP endpoints.

    Every call that leaves the process (chat messages, download, encode,
    upload) is an oracle `Step -> bool` saying whether that call returned
    or raised; a run is recorded as a trace of events. Local cleanup never
    raises in either bot (its own handlers swallow everything), so it is an
    event without an outcome. */
module Jobs {
  import opened Base
  import opened Text
  import opened ContentId
  import opened Ledger

  datatype Stage = Downloading | Compressing | Packaging | Uploading

  /** An external call. `ErrorNotice(k)` is the `k`-th try to deliver the
      failure message. */
  datatype Step =
    | ReplyNotInstagram
    | Prepare
    | SendProcessing
    | Progress(stage: Stage)
    | Download
    | Compress
    | Package
    | Upload
    | ReportDuplicate
    | ReportSuccess
    | ReportFailure
    | ErrorNotice(try: nat)
    | FinalNotice

  datatype Event = Call(step: Step, ok: bool) | Wait(seconds: nat) | Marked(id: string) | Cleaned

  /** Whether each external call returns (`true`) or raises. */
  type Oracle = Step -> bool

  /** The steps that do the actual work on the video. */
  predicate IsWork(e: Event) {
    e.Call? && (e.step.Download? || e.step.Compress? || e.step.Package? || e.step.Upload?)
  }

  /** How many times `s` was called in `t`. */
  function CallCount(t: seq<Event>, s: Step): nat {
    multiset(t)[Call(s, true)] + multiset(t)[Call(s, false)]
  }

  // ---------------------------------------------------------------------
  // Running a straight-line sequence of calls
  // ---------------------------------------------------------------------

  /** The calls made, and whether all of them returned. */
  datatype Run = Run(events: seq<Event>, completed: bool)

  /** `steps` run in order until the first that raises. */
  function RunSteps(steps: seq<Step>, ok: Oracle): (r: Run)
    ensures |r.events| <= |steps|
    ensures forall i :: 0 <= i < |r.events| ==> r.events[i] == Call(steps[i], ok(steps[i]))
    ensures forall e :: e in r.events ==> e.Call?
    ensures r.completed <==> forall i :: 0 <= i < |steps| ==> ok(steps[i])
    ensures r.completed ==> |r.events| == |steps|
    ensures !r.completed ==> 0 < |r.events| && !ok(steps[|r.events| - 1]) &&
                             forall i :: 0 <= i < |r.events| - 1 ==> ok(steps[i])
  {
    if |steps| == 0 then Run([], true)
    else if !ok(steps[0]) then Run([Call(steps[0], false)], false)
    else
      var rest := RunSteps(steps[1..], ok);
      Run([Call(steps[0], true)] + rest.events, rest.completed)
  }

  /** A run holds nothing but calls, and only calls of its steps. */
  lemma {:induction false} RunHoldsOnlyCalls(steps: seq<Step>, ok: Oracle)
    ensures var r := RunSteps(steps, ok);
            (forall s :: s !in steps ==> CallCount(r.events, s) == 0) &&
            (forall x :: multiset(r.events)[Wait(x)] == 0) &&
            (forall x :: multiset(r.events)[Marked(x)] == 0) &&
            multiset(r.events)[Cleaned] == 0
    decreases |steps|
  {
    if |steps| > 0 && ok(steps[0]) {
      RunHoldsOnlyCalls(steps[1..], ok);
      var r := RunSteps(steps, ok);
      var rest := RunSteps(steps[1..], ok);
      assert r.events == [Call(steps[0], true)] + rest.events;
    }
  }

  /** The calls of a run are exactly a prefix of its steps. */
  lemma {:induction false} RunIsPrefix(steps: seq<Step>, ok: Oracle)
    ensures var r := RunSteps(steps, ok);
            forall s :: Call(s, true) in r.events || Call(s, false) in r.events ==> s in steps
  {
    var r := RunSteps(steps, ok);
    forall s | Call(s, true) in r.events || Call(s, false) in r.events
      ensures s in steps
    {
      var i :| 0 <= i < |r.events| && r.events[i].Call? && r.events[i].step == s;
      assert steps[i] == s;
    }
  }

  // ---------------------------------------------------------------------
  // The streaming bot's handler (main.py)
  // ---------------------------------------------------------------------

  /** The status edits and work of the Telegram handler, in order. */
  const MainPipeline: seq<Step> :=
    [Progress(Downloading), Download, Progress(Compressing), Compress,
     Progress(Packaging), Package, Progress(Uploading), Upload]

  /** A handled message: what happened, and the ledger afterwards. */
  datatype Handled = Handled(trace: seq<Event>, ledger: set<string>)

  predicate AllSucceed(steps: seq<Step>, ok: Oracle) {
    forall i :: 0 <= i < |steps| ==> ok(steps[i])
  }

  /** The body of the handler's `try`, after the status message is sent,
      for content id `id`. */
  function MainTry(id: string, ledger: set<string>, ok: Oracle): (h: Handled)
    ensures Marked(id) in h.trace <==> id !in ledger && AllSucceed(MainPipeline, ok)
    ensures h.ledger == (if Marked(id) in h.trace then ledger + {id} else ledger)
    ensures Marked(id) in h.trace <==> Call(Upload, true) in h.trace
    ensures Cleaned !in h.trace
    ensures id in ledger ==> forall e :: e in h.trace ==> !IsWork(e)
  {
    if id in ledger then
      if ok(ReportDuplicate) then Handled([Call(ReportDuplicate, true)], ledger)
      else Handled([Call(ReportDuplicate, false), Call(ReportFailure, ok(ReportFailure))], ledger)
    else MainPublish(id, ledger, ok)
  }

  /** The pipeline part of the handler's `try`, for new content. */
  function MainPublish(id: string, ledger: set<string>, ok: Oracle): (h: Handled)
    requires id !in ledger
    ensures Marked(id) in h.trace <==> AllSucceed(MainPipeline, ok)
    ensures Marked(id) in h.trace <==> Call(Upload, true) in h.trace
    ensures h.ledger == (if Marked(id) in h.trace then ledger + {id} else ledger)
    ensures Cleaned !in h.trace
  {
    MainPipelineUploadsLast();
    PublishRun(MainPipeline, id, ledger, ok)
  }

  /** `Upload` is the last step and occurs nowhere else. */
  predicate UploadsLast(steps: seq<Step>) {
    |steps| > 0 && steps[|steps| - 1] == Upload &&
    forall i :: 0 <= i < |steps| - 1 ==> steps[i] != Upload
  }

  lemma MainPipelineUploadsLast()
    ensures UploadsLast(MainPipeline)
  {
  }

  /** Run `steps`; on success record `id` and report; on failure report. */
  function PublishRun(steps: seq<Step>, id: string, ledger: set<string>, ok: Oracle): (h: Handled)
    requires UploadsLast(steps)
    ensures Marked(id) in h.trace <==> AllSucceed(steps, ok)
    ensures Marked(id) in h.trace <==> Call(Upload, true) in h.trace
    ensures h.ledger == (if Marked(id) in h.trace then ledger + {id} else ledger)
    ensures Cleaned !in h.trace
  {
    var run := RunSteps(steps, ok);
    UploadOnlyLast(steps, ok);
    assert Marked(id) !in run.events && Cleaned !in run.events;
    var failure := [Call(ReportFailure, ok(ReportFailure))];
    if !run.completed then
      Handled(run.events + failure, ledger)
    else
      var report := if ok(ReportSuccess) then [Call(ReportSuccess, true)]
                    else [Call(ReportSuccess, false)] + failure;
      Handled(run.events + [Marked(id)] + report, ledger + {id})
  }

  /** When `Upload` is the last step and nowhere else, the upload returned
      within a run exactly when the run completed. */
  lemma UploadOnlyLast(steps: seq<Step>, ok: Oracle)
    requires UploadsLast(steps)
    ensures var r := RunSteps(steps, ok);
            Call(Upload, true) in r.events <==> r.completed
  {
    var r := RunSteps(steps, ok);
    if r.completed {
      assert r.events[|steps| - 1] == Call(Upload, true);
    }
  }

  /** Every ledger record of `id` in `t` comes right after `before` and is
      followed at once by `after`. */
  predicate RecordedBetween(t: seq<Event>, id: string, before: Event, after: seq<Event>) {
    forall i :: 0 <= i < |t| && t[i] == Marked(id) ==>
      0 < i && i + |after| < |t| && t[i - 1] == before && t[i + 1..i + 1 + |after|] == after
  }

  /** A single record between two record-free stretches. */
  lemma RecordedOnce(a: seq<Event>, b: seq<Event>, id: string, after: seq<Event>)
    requires |a| > 0 && Marked(id) !in a && Marked(id) !in b
    requires |after| <= |b| && b[..|after|] == after
    ensures RecordedBetween(a + [Marked(id)] + b, id, a[|a| - 1], after)
  {
    var t := a + [Marked(id)] + b;
    forall i | 0 <= i < |t| && t[i] == Marked(id)
      ensures 0 < i && i + |after| < |t| && t[i - 1] == a[|a| - 1] && t[i + 1..i + 1 + |after|] == after
    {
      assert i == |a| by {
        assert forall j :: 0 <= j < |a| ==> t[j] == a[j];
        assert forall j :: |a| < j < |t| ==> t[j] == b[j - |a| - 1];
      }
      assert t[i + 1..i + 1 + |after|] == b[..|after|];
    }
  }

  /** Events around a trace that are not records keep the property. */
  lemma RecordedBetweenWrapped(c: Event, body: seq<Event>, d: Event, id: string, before: Event, after: seq<Event>)
    requires c != Marked(id) && d != Marked(id) && RecordedBetween(body, id, before, after)
    ensures RecordedBetween([c] + body + [d], id, before, after)
  {
    var t := [c] + body + [d];
    forall i | 0 <= i < |t| && t[i] == Marked(id)
      ensures 0 < i && i + |after| < |t| && t[i - 1] == before && t[i + 1..i + 1 + |after|] == after
    {
      assert 0 < i < |t| - 1;
      assert t[i] == body[i - 1];
      assert t[i + 1..i + 1 + |after|] == body[i..i + |after|];
    }
  }

  /** In the handler's pipeline, the ledger record comes right after the
      returned upload and right before the success message. */
  lemma PublishRunOrder(steps: seq<Step>, id: string, ledger: set<string>, ok: Oracle)
    requires UploadsLast(steps)
    ensures RecordedBetween(PublishRun(steps, id, ledger, ok).trace, id,
                            Call(Upload, true), [Call(ReportSuccess, ok(ReportSuccess))])
  {
    var run := RunSteps(steps, ok);
    if run.completed {
      assert run.events[|run.events| - 1] == Call(Upload, true);
      ReportedAfterRun(run.events, id, ok(ReportSuccess), ok(ReportFailure));
    }
  }

  /** A returned run followed by the record and the success message (and,
      if that raised, the failure message) holds the record once, right
      after the run's last call and right before the success message. */
  lemma ReportedAfterRun(events: seq<Event>, id: string, reported: bool, failed: bool)
    requires |events| > 0 && forall e :: e in events ==> e.Call?
    ensures var report := if reported then [Call(ReportSuccess, true)]
                          else [Call(ReportSuccess, false)] + [Call(ReportFailure, failed)];
            RecordedBetween(events + [Marked(id)] + report, id, events[|events| - 1],
                            [Call(ReportSuccess, reported)])
  {
    var report := if reported then [Call(ReportSuccess, true)]
                  else [Call(ReportSuccess, false)] + [Call(ReportFailure, failed)];
    assert Marked(id) !in events;
    RecordedOnce(events, report, id, [Call(ReportSuccess, reported)]);
  }

  lemma MainTryOrder(id: string, ledger: set<string>, ok: Oracle)
    ensures RecordedBetween(MainTry(id, ledger, ok).trace, id,
                            Call(Upload, true), [Call(ReportSuccess, ok(ReportSuccess))])
  {
    if id !in ledger {
      MainPipelineUploadsLast();
      PublishRunOrder(MainPipeline, id, ledger, ok);
    }
  }

  /** In the streaming bot's handler, content is recorded only right after
      the folder upload returned and right before the success message. */
  lemma MarkFollowsUpload(text: string, ledger: set<string>, md5: Digest, ok: Oracle)
    ensures RecordedBetween(HandleMessage(text, ledger, md5, ok).trace, ExtractVideoId(Strip(text), md5),
                            Call(Upload, true), [Call(ReportSuccess, ok(ReportSuccess))])
  {
    var url := Strip(text);
    var id := ExtractVideoId(url, md5);
    if Contains(url, "instagram.com") && ok(SendProcessing) {
      var body := MainTry(id, ledger, ok);
      MainTryOrder(id, ledger, ok);
      RecordedBetweenWrapped(Call(SendProcessing, true), body.trace, Cleaned, id,
                             Call(Upload, true), [Call(ReportSuccess, ok(ReportSuccess))]);
    }
  }

  /** `InstagramBot.handle_message` of the streaming bot. */
  function HandleMessage(text: string, ledger: set<string>, md5: Digest, ok: Oracle): (h: Handled)
    ensures !Contains(Strip(text), "instagram.com") ==>
              h.trace == [Call(ReplyNotInstagram, ok(ReplyNotInstagram))] && h.ledger == ledger
    ensures Contains(Strip(text), "instagram.com") && !ok(SendProcessing) ==>
              h.trace == [Call(SendProcessing, false)] && h.ledger == ledger
    ensures Contains(Strip(text), "instagram.com") && ok(SendProcessing) ==>
              |h.trace| >= 2 && h.trace[0] == Call(SendProcessing, true) &&
              h.trace[|h.trace| - 1] == Cleaned && multiset(h.trace)[Cleaned] == 1
    ensures var url := Strip(text);
            h.ledger == (if Marked(ExtractVideoId(url, md5)) in h.trace then Mark(ledger, url, md5) else ledger)
    ensures var url := Strip(text);
            Marked(ExtractVideoId(url, md5)) in h.trace <==> Call(Upload, true) in h.trace
    ensures var url := Strip(text);
            IsDuplicate(ledger, url, md5) ==> h.ledger == ledger && forall e :: e in h.trace ==> !IsWork(e)
  {
    var url := Strip(text);
    if !Contains(url, "instagram.com") then
      Handled([Call(ReplyNotInstagram, ok(ReplyNotInstagram))], ledger)
    else if !ok(SendProcessing) then
      Handled([Call(SendProcessing, false)], ledger)
    else
      Announced(MainTry(ExtractVideoId(url, md5), ledger, ok))
  }

  /** The handler's `try` body preceded by the status message and followed
      by the `finally` cleanup. */
  function Announced(body: Handled): (h: Handled)
    requires Cleaned !in body.trace
    ensures h.ledger == body.ledger
    ensures |h.trace| >= 2 && h.trace[0] == Call(SendProcessing, true)
    ensures h.trace[|h.trace| - 1] == Cleaned && multiset(h.trace)[Cleaned] == 1
    ensures forall e :: e in h.trace && e != Cleaned && e != Call(SendProcessing, true) ==> e in body.trace
    ensures forall e :: e in body.trace ==> e in h.trace
  {
    var t := [Call(SendProcessing, true)] + body.trace + [Cleaned];
    assert multiset(t)[Cleaned] == multiset(body.trace)[Cleaned] + 1;
    Handled(t, body.ledger)
  }

  /** A content id is recorded exactly when every step up to the upload
      returned. */
  lemma MarkedIffPipelineSucceeds(text: string, ledger: set<string>, md5: Digest, ok: Oracle)
    ensures Contains(Strip(text), "instagram.com") && ok(SendProcessing) && !IsDuplicate(ledger, Strip(text), md5) ==>
            var h := HandleMessage(text, ledger, md5, ok);
            (Marked(ExtractVideoId(Strip(text), md5)) in h.trace <==> AllSucceed(MainPipeline, ok))
  {
    if Contains(Strip(text), "instagram.com") && ok(SendProcessing) && !IsDuplicate(ledger, Strip(text), md5) {
      var id := ExtractVideoId(Strip(text), md5);
      var body := MainTry(id, ledger, ok);
      assert HandleMessage(text, ledger, md5, ok) == Announced(body);
    }
  }

  /** Once a message has been published, the same content sent again does
      no work and leaves the ledger alone. */
  lemma RedeliveryDoesNoWork(text1: string, text2: string, ledger: set<string>, md5: Digest, ok1: Oracle, ok2: Oracle)
    requires ExtractVideoId(Strip(text1), md5) == ExtractVideoId(Strip(text2), md5)
    ensures var h1 := HandleMessage(text1, ledger, md5, ok1);
            var h2 := HandleMessage(text2, h1.ledger, md5, ok2);
            Call(Upload, true) in h1.trace ==> h2.ledger == h1.ledger && forall e :: e in h2.trace ==> !IsWork(e)
  {
  }

  // ---------------------------------------------------------------------
  // The single-file bot's processing (instagram_to_HLS_dropbox.py)
  // ---------------------------------------------------------------------

  /** The calls of `process_instagram_url`'s `try` before the ledger update. */
  const FilePipeline: seq<Step> :=
    [Prepare, SendProcessing, Download, Progress(Compressing), Compress, Progress(Uploading), Upload]

  /** Seconds slept before try `k` of the failure message. */
  function NoticeDelay(k: nat): nat {
    2 * k
  }

  /** The tries of the failure message from try `k` on: at most three in
      all, stopping at the first that returns. */
  function NoticeTries(k: nat, ok: Oracle): (n: nat)
    requires k < 3
    ensures 1 <= n <= 3 - k
    ensures forall j :: k <= j < k + n - 1 ==> !ok(ErrorNotice(j))
    ensures k + n < 3 ==> ok(ErrorNotice(k + n - 1))
    decreases 3 - k
  {
    if ok(ErrorNotice(k)) || k == 2 then 1 else 1 + NoticeTries(k + 1, ok)
  }

  /** The failure-message loop: each try sleeps its delay, then sends. */
  function NoticeLoop(k: nat, ok: Oracle): (t: seq<Event>)
    requires k < 3
    ensures |t| == 2 * NoticeTries(k, ok)
    ensures forall j {:trigger ErrorNotice(j)} :: k <= j < k + NoticeTries(k, ok) ==>
              t[2 * (j - k)] == Wait(NoticeDelay(j)) &&
              t[2 * (j - k) + 1] == Call(ErrorNotice(j), ok(ErrorNotice(j)))
    decreases 3 - k
  {
    var head := [Wait(NoticeDelay(k)), Call(ErrorNotice(k), ok(ErrorNotice(k)))];
    if ok(ErrorNotice(k)) || k == 2 then head
    else
      var rest := NoticeLoop(k + 1, ok);
      assert forall j {:trigger ErrorNotice(j)} :: k + 1 <= j < k + NoticeTries(k, ok) ==>
               (head + rest)[2 * (j - k)] == rest[2 * (j - (k + 1))] &&
               (head + rest)[2 * (j - k) + 1] == rest[2 * (j - (k + 1)) + 1];
      head + rest
  }

  /** The failure message is delivered exactly when one of the three tries
      would return, and then by the last try made. */
  lemma NoticeDeliveredIffSomeTryWorks(ok: Oracle)
    ensures var n := NoticeTries(0, ok);
            ok(ErrorNotice(n - 1)) <==> exists j :: 0 <= j < 3 && ok(ErrorNotice(j))
  {
    var n := NoticeTries(0, ok);
    if j :| 0 <= j < 3 && ok(ErrorNotice(j)) {
      assert j >= n - 1;
      if n == 3 {
        assert j == 2;
      }
    }
  }

  /** A failure-message delivery: sleeps and sends only. */
  predicate IsNotices(t: seq<Event>) {
    |t| > 0 && forall e :: e in t ==> e.Wait? || (e.Call? && e.step.ErrorNotice?)
  }

  /** What a delivery of the failure message does not contain. */
  lemma NoticesOnlyNotify(t: seq<Event>)
    requires IsNotices(t)
    ensures multiset(t)[Cleaned] == 0 && CallCount(t, FinalNotice) == 0
    ensures forall x :: multiset(t)[Marked(x)] == 0
  {
    assert Cleaned !in t;
    assert Call(FinalNotice, true) !in t && Call(FinalNotice, false) !in t;
    forall x ensures multiset(t)[Marked(x)] == 0 {
      assert Marked(x) !in t;
    }
  }

  /** The Telegram path's notices satisfy that shape. */
  lemma NoticeLoopIsNotices(ok: Oracle)
    ensures IsNotices(NoticeLoop(0, ok))
  {
    NoticeLoopFrom(0, ok);
  }

  /** Every suffix of the failure-message loop sleeps and sends only. */
  lemma {:induction false} NoticeLoopFrom(k: nat, ok: Oracle)
    requires k < 3
    ensures IsNotices(NoticeLoop(k, ok))
    decreases 3 - k
  {
    var head := [Wait(NoticeDelay(k)), Call(ErrorNotice(k), ok(ErrorNotice(k)))];
    if !(ok(ErrorNotice(k)) || k == 2) {
      NoticeLoopFrom(k + 1, ok);
      var rest := NoticeLoop(k + 1, ok);
      assert NoticeLoop(k, ok) == head + rest;
      forall e: Event | e in head + rest
        ensures e.Wait? || (e.Call? && e.step.ErrorNotice?)
      {
        assert e in head || e in rest;
      }
    }
  }

  /** The HTTP path's single try per attempt, without backoff. */
  function SingleNotice(ok: Oracle): (t: seq<Event>)
    ensures IsNotices(t) && |t| == 1
  {
    [Call(ErrorNotice(0), ok(ErrorNotice(0)))]
  }

  /** How a job ended: the content was already known, it was published, it
      raised, or the message was turned away before any work. */
  datatype Outcome = AlreadyDone | Completed | Failed | Rejected

  /** One processing attempt and the ledger it leaves. */
  datatype Processed = Processed(trace: seq<Event>, ledger: set<string>, outcome: Outcome)

  /** `t` closes with the failure message and a cleanup. */
  predicate EndsWithRecovery(t: seq<Event>, notices: seq<Event>) {
    |t| > |notices| && t[|t| - 1 - |notices|..] == notices + [Cleaned]
  }

  /** The `except` branch: deliver the failure message, then clean up. */
  function Recover(prefix: seq<Event>, ledger: set<string>, notices: seq<Event>): (p: Processed)
    requires IsNotices(notices)
    ensures p.outcome == Failed && p.ledger == ledger
    ensures p.trace == prefix + notices + [Cleaned]
    ensures forall e :: e in p.trace && !(e in notices) && e != Cleaned ==> e in prefix
  {
    Processed(prefix + notices + [Cleaned], ledger, Failed)
  }

  /** The body shared by `process_instagram_url` and `process_in_thread`
      for content id `id`: duplicate check, then the pipeline; anything
      that raises lands in `Recover`. */
  function Attempt(id: string, ledger: set<string>, ok: Oracle, notices: seq<Event>): (p: Processed)
    requires IsNotices(notices)
    ensures p.outcome == AlreadyDone <==> id in ledger && ok(ReportDuplicate)
    ensures p.outcome == AlreadyDone ==> p.trace == [Call(ReportDuplicate, true)]
    ensures p.outcome == Completed <==> id !in ledger && AllSucceed(FilePipeline, ok) && ok(ReportSuccess)
    ensures p.outcome != Rejected
    ensures id in ledger ==> p.ledger == ledger && forall e :: e in p.trace ==> !IsWork(e)
    ensures Marked(id) in p.trace <==> id !in ledger && AllSucceed(FilePipeline, ok)
    ensures p.ledger == (if Marked(id) in p.trace then ledger + {id} else ledger)
  {
    if id in ledger then
      if ok(ReportDuplicate) then Processed([Call(ReportDuplicate, true)], ledger, AlreadyDone)
      else
        Recover([Call(ReportDuplicate, false)], ledger, notices)
    else
      FilePipelineUploadsLast();
      PublishAttempt(FilePipeline, id, ledger, ok, notices)
  }

  /** What an attempt's trace holds: the upload and the ledger record go
      together and happen at most once; cleanup runs once, or twice when a
      failure follows the ledger record; the only sleeps are those of the
      failure message; a failure ends with the failure message and cleanup. */
  lemma AttemptTrace(id: string, ledger: set<string>, ok: Oracle, notices: seq<Event>)
    requires IsNotices(notices)
    ensures var p := Attempt(id, ledger, ok, notices);
            (Marked(id) in p.trace <==> Call(Upload, true) in p.trace) &&
            multiset(p.trace)[Marked(id)] <= 1 &&
            multiset(p.trace)[Cleaned] ==
              (if p.outcome == AlreadyDone then 0
               else if p.outcome == Failed && Marked(id) in p.trace then 2
               else 1) &&
            (p.outcome == Failed ==> EndsWithRecovery(p.trace, notices))
  {
    if id !in ledger {
      FilePipelineUploadsLast();
      PublishAttemptTrace(FilePipeline, id, ledger, ok, notices);
    } else if !ok(ReportDuplicate) {
      RecoverTrace([Call(ReportDuplicate, false)], notices);
    }
  }

  /** No sleeps and no final notice: what the retry loop adds itself. */
  predicate Quiet(t: seq<Event>) {
    forall e :: e in t ==> !e.Wait? && e != Call(FinalNotice, true) && e != Call(FinalNotice, false)
  }

  /** An attempt whose failure message is quiet is quiet throughout. */
  lemma AttemptQuiet(id: string, ledger: set<string>, ok: Oracle, notices: seq<Event>)
    requires IsNotices(notices) && Quiet(notices)
    ensures Quiet(Attempt(id, ledger, ok, notices).trace)
  {
    if id !in ledger {
      FilePipelineUploadsLast();
      PublishQuiet(FilePipeline, id, ledger, ok, notices);
    }
  }

  lemma PublishQuiet(steps: seq<Step>, id: string, ledger: set<string>, ok: Oracle, notices: seq<Event>)
    requires UploadsLast(steps) && FinalNotice !in steps && id !in ledger && IsNotices(notices) && Quiet(notices)
    ensures Quiet(PublishAttempt(steps, id, ledger, ok, notices).trace)
  {
    var run := RunSteps(steps, ok);
    RunQuiet(steps, ok);
    var tail := [Marked(id), Cleaned];
    assert Quiet(tail);
    if run.completed {
      QuietAppend(run.events, tail);
      var s := [Call(ReportSuccess, ok(ReportSuccess))];
      assert Quiet(s);
      QuietAppend(run.events + tail, s);
      if !ok(ReportSuccess) {
        QuietAppend(run.events + tail + s, notices);
        QuietAppend(run.events + tail + s + notices, [Cleaned]);
      }
    } else {
      QuietAppend(run.events, notices);
      QuietAppend(run.events + notices, [Cleaned]);
    }
  }

  lemma QuietAppend(a: seq<Event>, b: seq<Event>)
    requires Quiet(a) && Quiet(b)
    ensures Quiet(a + b)
  {
    forall e | e in a + b
      ensures !e.Wait? && e != Call(FinalNotice, true) && e != Call(FinalNotice, false)
    {
      assert e in a || e in b;
    }
  }

  lemma RunQuiet(steps: seq<Step>, ok: Oracle)
    requires FinalNotice !in steps
    ensures Quiet(RunSteps(steps, ok).events)
  {
    var run := RunSteps(steps, ok);
    forall e | e in run.events
      ensures !e.Wait? && e != Call(FinalNotice, true) && e != Call(FinalNotice, false)
    {
      var i :| 0 <= i < |run.events| && run.events[i] == e;
      assert e == Call(steps[i], ok(steps[i])) && steps[i] in steps;
    }
  }

  lemma FilePipelineUploadsLast()
    ensures UploadsLast(FilePipeline) && FinalNotice !in FilePipeline
  {
  }

  /** The pipeline, ledger update, cleanup and success report of an
      attempt for new content. */
  function PublishAttempt(steps: seq<Step>, id: string, ledger: set<string>, ok: Oracle, notices: seq<Event>): (p: Processed)
    requires UploadsLast(steps) && id !in ledger && IsNotices(notices)
    ensures p.outcome != AlreadyDone && p.outcome != Rejected
    ensures p.outcome == Completed <==> AllSucceed(steps, ok) && ok(ReportSuccess)
    ensures Marked(id) in p.trace <==> AllSucceed(steps, ok)
    ensures p.ledger == (if Marked(id) in p.trace then ledger + {id} else ledger)
  {
    var run := RunSteps(steps, ok);
    if !run.completed then
      Recover(run.events, ledger, notices)
    else
      var done := run.events + [Marked(id), Cleaned];
      if ok(ReportSuccess) then Processed(done + [Call(ReportSuccess, true)], ledger + {id}, Completed)
      else
        Recover(done + [Call(ReportSuccess, false)], ledger + {id}, notices)
  }

  /** In an attempt, the ledger record comes right after the returned
      upload, then the cleanup, then the success message. */
  lemma PublishAttemptOrder(steps: seq<Step>, id: string, ledger: set<string>, ok: Oracle, notices: seq<Event>)
    requires UploadsLast(steps) && id !in ledger && IsNotices(notices)
    ensures RecordedBetween(PublishAttempt(steps, id, ledger, ok, notices).trace, id,
                            Call(Upload, true), [Cleaned, Call(ReportSuccess, ok(ReportSuccess))])
  {
    if RunSteps(steps, ok).completed {
      CompletedAttemptOrder(steps, id, ledger, ok, notices);
    }
  }

  /** The same, once the pipeline has returned. */
  lemma CompletedAttemptOrder(steps: seq<Step>, id: string, ledger: set<string>, ok: Oracle, notices: seq<Event>)
    requires UploadsLast(steps) && id !in ledger && IsNotices(notices) && RunSteps(steps, ok).completed
    ensures RecordedBetween(PublishAttempt(steps, id, ledger, ok, notices).trace, id,
                            Call(Upload, true), [Cleaned, Call(ReportSuccess, ok(ReportSuccess))])
  {
    var run := RunSteps(steps, ok);
    assert run.events[|run.events| - 1] == Call(Upload, true);
    MarkedAfterRun(run.events, id, ok(ReportSuccess), notices);
  }

  /** The trace of a returned pipeline `events` followed by the record, the
      cleanup and the success message (and, if that message raised, the
      failure notices and a second cleanup) holds the record once, right
      after the last call of `events`. */
  lemma MarkedAfterRun(events: seq<Event>, id: string, reported: bool, notices: seq<Event>)
    requires |events| > 0 && (forall e :: e in events ==> e.Call?) && IsNotices(notices)
    ensures var after := [Cleaned, Call(ReportSuccess, reported)];
            var done := events + [Marked(id), Cleaned];
            RecordedBetween(if reported then done + [Call(ReportSuccess, true)]
                            else done + [Call(ReportSuccess, false)] + notices + [Cleaned],
                            id, events[|events| - 1], after)
  {
    var after := [Cleaned, Call(ReportSuccess, reported)];
    if reported {
      assert events + [Marked(id), Cleaned] + [Call(ReportSuccess, true)] == events + [Marked(id)] + after;
      RecordedOnce(events, after, id, after);
    } else {
      var rest := after + notices + [Cleaned];
      assert Marked(id) !in notices;
      assert events + [Marked(id), Cleaned] + [Call(ReportSuccess, false)] + notices + [Cleaned]
          == events + [Marked(id)] + rest;
      assert rest[..2] == after;
      RecordedOnce(events, rest, id, after);
    }
  }

  /** The single-file bot records content only right after the folder upload
      returned, before the cleanup and the success message. */
  lemma AttemptOrder(id: string, ledger: set<string>, ok: Oracle, notices: seq<Event>)
    requires IsNotices(notices)
    ensures RecordedBetween(Attempt(id, ledger, ok, notices).trace, id,
                            Call(Upload, true), [Cleaned, Call(ReportSuccess, ok(ReportSuccess))])
  {
    if id !in ledger {
      FilePipelineUploadsLast();
      PublishAttemptOrder(FilePipeline, id, ledger, ok, notices);
    }
  }

  lemma PublishAttemptTrace(steps: seq<Step>, id: string, ledger: set<string>, ok: Oracle, notices: seq<Event>)
    requires UploadsLast(steps) && id !in ledger && IsNotices(notices)
    ensures var p := PublishAttempt(steps, id, ledger, ok, notices);
            (Marked(id) in p.trace <==> Call(Upload, true) in p.trace) &&
            multiset(p.trace)[Marked(id)] <= 1 &&
            multiset(p.trace)[Cleaned] == (if p.outcome == Failed && Marked(id) in p.trace then 2 else 1) &&
            (p.outcome == Failed ==> EndsWithRecovery(p.trace, notices))
  {
    var run := RunSteps(steps, ok);
    UploadOnlyLast(steps, ok);
    if !run.completed {
      FailedRunTrace(run.events, notices, id);
    } else {
      CompletedRunTrace(run.events, id, ok(ReportSuccess), notices);
    }
  }

  /** The trace of a run that raised, followed by the recovery. */
  lemma FailedRunTrace(events: seq<Event>, notices: seq<Event>, id: string)
    requires forall e :: e in events ==> e.Call?
    requires Call(Upload, true) !in events && IsNotices(notices)
    ensures var t := events + notices + [Cleaned];
            Marked(id) !in t && Call(Upload, true) !in t &&
            multiset(t)[Marked(id)] == 0 && multiset(t)[Cleaned] == 1 &&
            EndsWithRecovery(t, notices)
  {
    var t := events + notices + [Cleaned];
    assert Cleaned !in events && Cleaned !in notices;
    assert Marked(id) !in notices && Call(Upload, true) !in notices;
    assert t[|t| - 1 - |notices|..] == notices + [Cleaned];
  }

  /** The trace of a run that completed: the ledger record, cleanup, the
      success report, and the recovery when that report raises. */
  lemma CompletedRunTrace(events: seq<Event>, id: string, reported: bool, notices: seq<Event>)
    requires forall e :: e in events ==> e.Call?
    requires Call(Upload, true) in events && IsNotices(notices)
    ensures var done := events + [Marked(id), Cleaned] + [Call(ReportSuccess, reported)];
            var t := if reported then done else done + notices + [Cleaned];
            Marked(id) in t && Call(Upload, true) in t &&
            multiset(t)[Marked(id)] == 1 && multiset(t)[Cleaned] == (if reported then 1 else 2) &&
            (!reported ==> EndsWithRecovery(t, notices))
  {
    var done := events + [Marked(id), Cleaned] + [Call(ReportSuccess, reported)];
    assert Cleaned !in events && Marked(id) !in events;
    assert multiset(done)[Marked(id)] == 1 && multiset(done)[Cleaned] == 1;
    if !reported {
      var t := done + notices + [Cleaned];
      assert Cleaned !in notices && Marked(id) !in notices;
      assert t[|t| - 1 - |notices|..] == notices + [Cleaned];
    }
  }

  /** The counts of a recovery trace in terms of its prefix. */
  /** What the `except` branch does to a job: it fails, keeps the ledger,
      ends with the failure message and one more cleanup, and adds no
      record, no final notice and no upload; its only sleeps are the
      message's backoff. */
  lemma RecoverEffects(prefix: seq<Event>, ledger: set<string>, notices: seq<Event>)
    requires IsNotices(notices)
    ensures var p := Recover(prefix, ledger, notices);
            var t := p.trace;
            p.outcome == Failed && p.ledger == ledger &&
            EndsWithRecovery(t, notices) && t[..|prefix|] == prefix &&
            multiset(t)[Cleaned] == multiset(prefix)[Cleaned] + 1 &&
            (forall x :: multiset(t)[Marked(x)] == multiset(prefix)[Marked(x)]) &&
            (forall x :: multiset(t)[Wait(x)] == multiset(prefix)[Wait(x)] + multiset(notices)[Wait(x)]) &&
            CallCount(t, FinalNotice) == CallCount(prefix, FinalNotice) &&
            (forall e :: e in t && e.Call? && e.step.Upload? ==> e in prefix)
  {
    RecoverTrace(prefix, notices);
    var t := prefix + notices + [Cleaned];
    assert t[..|prefix|] == prefix;
  }

  lemma RecoverTrace(prefix: seq<Event>, notices: seq<Event>)
    requires IsNotices(notices)
    ensures var t := prefix + notices + [Cleaned];
            EndsWithRecovery(t, notices) &&
            multiset(t)[Cleaned] == multiset(prefix)[Cleaned] + 1 &&
            (forall x :: multiset(t)[Marked(x)] == multiset(prefix)[Marked(x)]) &&
            (forall x :: multiset(t)[Wait(x)] == multiset(prefix)[Wait(x)] + multiset(notices)[Wait(x)]) &&
            CallCount(t, FinalNotice) == CallCount(prefix, FinalNotice) &&
            (forall e :: e in t && e.Call? && e.step.Upload? ==> e in prefix)
  {
    var t := prefix + notices + [Cleaned];
    NoticesOnlyNotify(notices);
    assert t[|t| - 1 - |notices|..] == notices + [Cleaned];
  }

  /** `process_instagram_url`. */
  function ProcessUrl(url: string, ledger: set<string>, md5: Digest, ok: Oracle): (p: Processed)
    ensures var id := ExtractVideoId(url, md5);
            p.ledger == (if Call(Upload, true) in p.trace then Mark(ledger, url, md5) else ledger)
    ensures p.outcome == Completed <==>
              !IsDuplicate(ledger, url, md5) && AllSucceed(FilePipeline, ok) && ok(ReportSuccess)
    ensures p.outcome == Failed ==>
              Call(ErrorNotice(0), ok(ErrorNotice(0))) in p.trace && p.trace[|p.trace| - 1] == Cleaned
    ensures p.outcome == Failed ==> EndsWithRecovery(p.trace, NoticeLoop(0, ok))
  {
    var t := NoticeLoop(0, ok);
    NoticeLoopIsNotices(ok);
    NoticeLoopOpens(ok);
    var id := ExtractVideoId(url, md5);
    AttemptTrace(id, ledger, ok, t);
    var p := Attempt(id, ledger, ok, t);
    RecoveryHoldsNotices(p.trace, t);
    p
  }

  /** The first try of the failure message is sent after no sleep. */
  lemma NoticeLoopOpens(ok: Oracle)
    ensures var t := NoticeLoop(0, ok);
            |t| >= 2 && t[0] == Wait(0) && t[1] == Call(ErrorNotice(0), ok(ErrorNotice(0)))
  {
  }

  /** A trace that ends with a recovery holds each of its notices and ends
      with the cleanup. */
  lemma RecoveryHoldsNotices(trace: seq<Event>, notices: seq<Event>)
    ensures EndsWithRecovery(trace, notices) ==>
              trace[|trace| - 1] == Cleaned && forall e :: e in notices ==> e in trace
  {
    if EndsWithRecovery(trace, notices) {
      var n := |trace| - 1 - |notices|;
      assert trace[n..] == notices + [Cleaned];
      forall e | e in notices
        ensures e in trace
      {
        var i :| 0 <= i < |notices| && notices[i] == e;
        assert trace[n + i] == e;
      }
    }
  }

  /** `handle_message` of the single-file bot; `netloc` is the network
      location parsed from the stripped message. */
  function HandleFileMessage(text: string, netloc: string, ledger: set<string>, md5: Digest, ok: Oracle): (p: Processed)
    ensures !Contains(Lower(netloc), "instagram.com") ==>
              p.trace == [Call(ReplyNotInstagram, ok(ReplyNotInstagram))] && p.ledger == ledger
    ensures Contains(Lower(netloc), "instagram.com") ==> p == ProcessUrl(Strip(text), ledger, md5, ok)
    ensures p.outcome == Rejected <==> !Contains(Lower(netloc), "instagram.com")
  {
    if !Contains(Lower(netloc), "instagram.com") then
      Processed([Call(ReplyNotInstagram, ok(ReplyNotInstagram))], ledger, Rejected)
    else ProcessUrl(Strip(text), ledger, md5, ok)
  }

  // ---------------------------------------------------------------------
  // The HTTP background retry loop
  // ---------------------------------------------------------------------

  const MaxRetries: nat := 3

  /** Sleep before attempt `k`, `retry_count * 2 + 1` seconds. */
  function RetryDelay(k: nat): nat {
    2 * k + 1
  }

  /** The sleeps of `n` consecutive attempts from attempt `k` on. */
  function Schedule(k: nat, n: nat): (w: seq<nat>)
    ensures |w| == n
    ensures forall i :: 0 <= i < n ==> w[i] == RetryDelay(k + i)
  {
    seq<nat>(n, i requires 0 <= i < n => RetryDelay(k + i))
  }

  /** The sleeps are odd numbers of seconds above `2 k`, each two seconds
      longer than the one before; the three attempts of a job sleep 1, 3
      and 5 seconds. */
  lemma ScheduleShape(k: nat, n: nat)
    ensures var w := Schedule(k, n);
            (forall i :: 0 <= i < n ==> w[i] % 2 == 1 && w[i] > 2 * k) &&
            (forall i :: 0 < i < n ==> w[i] == w[i - 1] + 2) &&
            (k == 0 && n == MaxRetries ==> w == [1, 3, 5])
  {
  }


  /** The `Wait` events of a trace, in order. */
  function Waits(t: seq<Event>): (w: seq<nat>)
    ensures |w| <= |t|
    ensures (forall e :: e in t ==> !e.Wait?) ==> w == []
  {
    if |t| == 0 then []
    else (if t[0].Wait? then [t[0].seconds] else []) + Waits(t[1..])
  }

  lemma {:induction false} WaitsAppend(a: seq<Event>, b: seq<Event>)
    ensures Waits(a + b) == Waits(a) + Waits(b)
    decreases |a|
  {
    if |a| == 0 {
      assert a + b == b;
    } else {
      assert (a + b)[0] == a[0];
      assert (a + b)[1..] == a[1..] + b;
      WaitsAppend(a[1..], b);
    }
  }

  /** A quiet trace adds neither sleeps nor a final notice. */
  lemma QuietCounts(t: seq<Event>)
    requires Quiet(t)
    ensures Waits(t) == [] && CallCount(t, FinalNotice) == 0
  {
    assert Call(FinalNotice, true) !in t && Call(FinalNotice, false) !in t;
  }

  /** What appending one attempt, after its sleep, does to a trace. */
  lemma ExtendTrace(trace: seq<Event>, k: nat, attempt: seq<Event>, id: string)
    requires Waits(attempt) == [] && CallCount(attempt, FinalNotice) == 0
    ensures var t := trace + ([Wait(RetryDelay(k))] + attempt);
            Waits(t) == Waits(trace) + [RetryDelay(k)] &&
            CallCount(t, FinalNotice) == CallCount(trace, FinalNotice) &&
            multiset(t)[Marked(id)] == multiset(trace)[Marked(id)] + multiset(attempt)[Marked(id)]
  {
    WaitsAppend([Wait(RetryDelay(k))], attempt);
    WaitsAppend(trace, [Wait(RetryDelay(k))] + attempt);
  }

  lemma ScheduleSnoc(n: nat)
    ensures Schedule(0, n) + [RetryDelay(n)] == Schedule(0, n + 1)
  {
  }

  lemma ScheduleOfThree()
    ensures Schedule(0, 3) == [1, 3, 5]
  {
  }

  /** What the final notice after the third attempt adds to the trace. */
  lemma FinalNoticeTrace(trace: seq<Event>, last: Event, id: string)
    requires last.Call? && last.step == FinalNotice
    requires Waits(trace) == Schedule(0, 3) && CallCount(trace, FinalNotice) == 0
    ensures var t := trace + [last];
            Waits(t) == [1, 3, 5] && Waits(t) == Schedule(0, |Waits(t)|) &&
            CallCount(t, FinalNotice) == 1 &&
            multiset(t)[Marked(id)] == multiset(trace)[Marked(id)] &&
            (Marked(id) in t <==> Marked(id) in trace) &&
            (Cleaned in trace ==> Cleaned in t)
  {
    WaitsAppend(trace, [last]);
    ScheduleOfThree();
  }

  /** `process_in_thread`: one attempt of the HTTP path, which sends the
      failure message once and re-raises. */
  method ProcessInThread(id: string, ledger: set<string>, ok: Oracle) returns (p: Processed)
    ensures p.outcome != Rejected
    ensures p.outcome == AlreadyDone <==> id in ledger && ok(ReportDuplicate)
    ensures p.outcome == AlreadyDone ==> p.trace == [Call(ReportDuplicate, true)]
    ensures p.outcome == Completed <==> id !in ledger && AllSucceed(FilePipeline, ok) && ok(ReportSuccess)
    ensures Marked(id) in p.trace <==> id !in ledger && AllSucceed(FilePipeline, ok)
    ensures multiset(p.trace)[Marked(id)] <= (if id in ledger then 0 else 1)
    ensures p.ledger == (if Marked(id) in p.trace then ledger + {id} else ledger)
    ensures Waits(p.trace) == [] && CallCount(p.trace, FinalNotice) == 0
    ensures p.outcome == Failed ==> EndsWithRecovery(p.trace, SingleNotice(ok))
  {
    var notices := SingleNotice(ok);
    AttemptQuiet(id, ledger, ok, notices);
    AttemptTrace(id, ledger, ok, notices);
    p := Attempt(id, ledger, ok, notices);
    QuietCounts(p.trace);
  }

  /** Whether attempt `j` of the retry loop finds `id` in the ledger: it was
      there to begin with, or an earlier attempt's pipeline returned (and so
      recorded it). */
  function KnownBefore(id: string, ledger: set<string>, ok: nat -> Oracle, j: nat): bool {
    if j == 0 then id in ledger
    else KnownBefore(id, ledger, ok, j - 1) || AllSucceed(FilePipeline, ok(j - 1))
  }

  /** Attempt `j` finds the id known exactly when it was known at the start
      or some earlier attempt's pipeline returned. */
  lemma {:induction false} KnownBeforeMeansEarlierPipeline(id: string, ledger: set<string>, ok: nat -> Oracle, j: nat)
    ensures KnownBefore(id, ledger, ok, j) <==>
            id in ledger || exists i :: 0 <= i < j && AllSucceed(FilePipeline, ok(i))
  {
    if j > 0 {
      KnownBeforeMeansEarlierPipeline(id, ledger, ok, j - 1);
      if AllSucceed(FilePipeline, ok(j - 1)) {
        assert exists i :: 0 <= i < j && AllSucceed(FilePipeline, ok(i));
      }
    }
  }

  /** How one attempt of `process_in_thread` ends, from whether the id is
      already known and from what its calls do. */
  function AttemptOutcome(ok: Oracle, known: bool): (o: Outcome)
    ensures o == AlreadyDone <==> known && ok(ReportDuplicate)
    ensures o == Completed <==> !known && AllSucceed(FilePipeline, ok) && ok(ReportSuccess)
  {
    if known then (if ok(ReportDuplicate) then AlreadyDone else Failed)
    else if AllSucceed(FilePipeline, ok) && ok(ReportSuccess) then Completed
    else Failed
  }

  /** `outs` are the outcomes of the attempts the retry loop makes: each is
      what that attempt does, every attempt but the last failed, and the loop
      stops at the first attempt that does not fail or after the third. */
  predicate RetryOutcomes(id: string, ledger: set<string>, ok: nat -> Oracle, outs: seq<Outcome>) {
    1 <= |outs| <= MaxRetries &&
    (forall j :: 0 <= j < |outs| ==> outs[j] == AttemptOutcome(ok(j), KnownBefore(id, ledger, ok, j))) &&
    (forall j :: 0 <= j < |outs| - 1 ==> outs[j] == Failed) &&
    (|outs| < MaxRetries ==> outs[|outs| - 1] != Failed)
  }

  /** The oracles fix how many attempts the loop makes and how each ends. */
  lemma RetryOutcomesUnique(id: string, ledger: set<string>, ok: nat -> Oracle, a: seq<Outcome>, b: seq<Outcome>)
    requires RetryOutcomes(id, ledger, ok, a) && RetryOutcomes(id, ledger, ok, b)
    ensures a == b
  {
  }

  /** The loop stops at the first attempt that succeeds. */
  lemma FirstSuccessStops(id: string, ledger: set<string>, ok: nat -> Oracle, outs: seq<Outcome>, j: nat)
    requires RetryOutcomes(id, ledger, ok, outs) && j < |outs|
    requires AttemptOutcome(ok(j), KnownBefore(id, ledger, ok, j)) != Failed
    ensures |outs| == j + 1 && outs[j] != Failed
  {
  }

  /** Attempt `j` of the retry loop fails. */
  predicate AttemptFails(id: string, ledger: set<string>, ok: nat -> Oracle, j: nat) {
    AttemptOutcome(ok(j), KnownBefore(id, ledger, ok, j)) == Failed
  }

  /** The attempts made so far all failed, each as its oracle says. */
  predicate FailedSoFar(id: string, ledger: set<string>, ok: nat -> Oracle, outs: seq<Outcome>) {
    (forall j :: 0 <= j < |outs| ==> outs[j] == Failed) &&
    (forall j: nat :: j < |outs| ==> AttemptFails(id, ledger, ok, j))
  }

  /** Another failed attempt extends the failures. */
  lemma FailedSoFarExtend(id: string, ledger: set<string>, ok: nat -> Oracle, outs: seq<Outcome>, known: bool)
    requires FailedSoFar(id, ledger, ok, outs)
    requires known == KnownBefore(id, ledger, ok, |outs|) && AttemptOutcome(ok(|outs|), known) == Failed
    ensures FailedSoFar(id, ledger, ok, outs + [Failed])
  {
    var o := outs + [Failed];
    assert forall j :: 0 <= j < |outs| ==> o[j] == outs[j];
    assert AttemptFails(id, ledger, ok, |outs|);
  }

  /** The loop ends at a first attempt that does not fail, and its outcomes
      are then complete. */
  lemma FailedSoFarStop(id: string, ledger: set<string>, ok: nat -> Oracle, outs: seq<Outcome>, known: bool, o: Outcome)
    requires FailedSoFar(id, ledger, ok, outs) && |outs| < MaxRetries
    requires known == KnownBefore(id, ledger, ok, |outs|) && o == AttemptOutcome(ok(|outs|), known)
    requires o != Failed
    ensures RetryOutcomes(id, ledger, ok, outs + [o])
  {
    var r := outs + [o];
    forall j | 0 <= j < |r|
      ensures r[j] == AttemptOutcome(ok(j), KnownBefore(id, ledger, ok, j))
    {
      if j < |outs| {
        assert r[j] == outs[j] && AttemptFails(id, ledger, ok, j);
      }
    }
  }

  /** Three failures also complete the outcomes. */
  lemma FailedSoFarExhausted(id: string, ledger: set<string>, ok: nat -> Oracle, outs: seq<Outcome>)
    requires FailedSoFar(id, ledger, ok, outs) && |outs| == MaxRetries
    ensures RetryOutcomes(id, ledger, ok, outs)
  {
    forall j | 0 <= j < |outs|
      ensures outs[j] == AttemptOutcome(ok(j), KnownBefore(id, ledger, ok, j))
    {
      assert AttemptFails(id, ledger, ok, j);
    }
  }

  /** Two runs of the loop read off its outcomes: a late failure on the first
      attempt is reported as a duplicate on the second, and a pipeline that
      first returns on the third attempt completes there. */
  lemma RetryExamples(id: string, ledger: set<string>, ok: nat -> Oracle, outs: seq<Outcome>)
    requires RetryOutcomes(id, ledger, ok, outs)
    ensures id !in ledger && AllSucceed(FilePipeline, ok(0)) && !ok(0)(ReportSuccess) && ok(1)(ReportDuplicate) ==>
              |outs| == 2 && outs[1] == AlreadyDone && KnownBefore(id, ledger, ok, 2)
    ensures id !in ledger && !AllSucceed(FilePipeline, ok(0)) && !AllSucceed(FilePipeline, ok(1)) &&
            AllSucceed(FilePipeline, ok(2)) && ok(2)(ReportSuccess) ==>
              |outs| == 3 && outs[2] == Completed
  {
    if id !in ledger && AllSucceed(FilePipeline, ok(0)) && !ok(0)(ReportSuccess) && ok(1)(ReportDuplicate) {
      assert outs[0] == Failed;
      assert KnownBefore(id, ledger, ok, 1);
    }
    if id !in ledger && !AllSucceed(FilePipeline, ok(0)) && !AllSucceed(FilePipeline, ok(1)) &&
       AllSucceed(FilePipeline, ok(2)) && ok(2)(ReportSuccess) {
      assert outs[0] == Failed;
      assert !KnownBefore(id, ledger, ok, 2);
    }
  }

  /** One pass of the retry loop: the sleep before attempt `k`, then the
      attempt, appended to what the earlier attempts left behind. */
  method RetryAttempt(id: string, ledger: set<string>, ok: Oracle, k: nat, trace: seq<Event>, l: set<string>)
    returns (q: Processed)
    requires Waits(trace) == Schedule(0, k) && CallCount(trace, FinalNotice) == 0
    requires multiset(trace)[Marked(id)] <= (if id in ledger then 0 else 1)
    requires l == (if Marked(id) in trace then ledger + {id} else ledger)
    ensures Waits(q.trace) == Schedule(0, k + 1) && CallCount(q.trace, FinalNotice) == 0
    ensures multiset(q.trace)[Marked(id)] <= (if id in ledger then 0 else 1)
    ensures q.ledger == (if Marked(id) in q.trace then ledger + {id} else ledger)
    ensures q.outcome == Completed ==> id in q.ledger
    ensures id !in l && AllSucceed(FilePipeline, ok) && !ok(ReportSuccess) ==> q.outcome == Failed && id in q.ledger
    ensures id in l && ok(ReportDuplicate) ==> q.outcome == AlreadyDone && q.ledger == l
    ensures id !in l && !AllSucceed(FilePipeline, ok) ==> q.outcome == Failed && q.ledger == l
    ensures id !in l && AllSucceed(FilePipeline, ok) && ok(ReportSuccess) ==> q.outcome == Completed
    ensures q.outcome == Failed ==> Cleaned in q.trace
    ensures q.outcome == AttemptOutcome(ok, id in l)
    ensures id in q.ledger <==> id in l || AllSucceed(FilePipeline, ok)
  {
    var p := ProcessInThread(id, l, ok);
    ExtendTrace(trace, k, p.trace, id);
    ScheduleSnoc(k);
    assert Marked(id) in trace ==> id in l && Marked(id) !in p.trace;
    var t := trace + ([Wait(RetryDelay(k))] + p.trace);
    assert Marked(id) in t <==> Marked(id) in trace || Marked(id) in p.trace;
    assert p.outcome == Failed ==> Cleaned in p.trace by {
      if p.outcome == Failed {
        assert p.trace[|p.trace| - 1] == (SingleNotice(ok) + [Cleaned])[|SingleNotice(ok)|];
      }
    }
    q := Processed(t, p.ledger, p.outcome);
  }

  /** `background_process` for content id `id`: up to three attempts,
      sleeping 1, 3 and 5 seconds before them, stopping after the first
      that does not raise; a final notice when all three raise. The oracle
      is indexed by attempt, since each attempt makes its calls afresh. */
  method RetryLoop(id: string, ledger: set<string>, ok: nat -> Oracle) returns (b: Processed, outs: seq<Outcome>)
    ensures RetryOutcomes(id, ledger, ok, outs)
    ensures |Waits(b.trace)| == |outs| && b.outcome == outs[|outs| - 1]
    ensures id in b.ledger <==> KnownBefore(id, ledger, ok, |outs|)
    ensures var w := Waits(b.trace);
            1 <= |w| <= MaxRetries && w == Schedule(0, |w|) && (b.outcome == Failed ==> w == [1, 3, 5])
    ensures CallCount(b.trace, FinalNotice) == (if b.outcome == Failed then 1 else 0)
    ensures multiset(b.trace)[Marked(id)] <= (if id in ledger then 0 else 1)
    ensures b.ledger == (if Marked(id) in b.trace then ledger + {id} else ledger)
    ensures b.outcome == Completed ==> id in b.ledger
    ensures b.outcome == Failed ==> Cleaned in b.trace
    ensures id !in ledger && AllSucceed(FilePipeline, ok(0)) && !ok(0)(ReportSuccess) && ok(1)(ReportDuplicate) ==>
              b.outcome == AlreadyDone && b.ledger == ledger + {id}
    ensures id !in ledger && !AllSucceed(FilePipeline, ok(0)) && !AllSucceed(FilePipeline, ok(1)) &&
            AllSucceed(FilePipeline, ok(2)) && ok(2)(ReportSuccess) ==>
              b.outcome == Completed && |Waits(b.trace)| == 3
  {
    b, outs := RetryLoopCore(id, ledger, ok);
    RetryExamples(id, ledger, ok, outs);
    if b.outcome == Completed {
      assert !KnownBefore(id, ledger, ok, |outs| - 1) && AllSucceed(FilePipeline, ok(|outs| - 1));
    }
  }

  /** The loop itself, with what holds on both of its exits. */
  method RetryLoopCore(id: string, ledger: set<string>, ok: nat -> Oracle) returns (b: Processed, outs: seq<Outcome>)
    ensures RetryOutcomes(id, ledger, ok, outs)
    ensures |Waits(b.trace)| == |outs| && b.outcome == outs[|outs| - 1]
    ensures id in b.ledger <==> KnownBefore(id, ledger, ok, |outs|)
    ensures var w := Waits(b.trace);
            1 <= |w| <= MaxRetries && w == Schedule(0, |w|) && (b.outcome == Failed ==> w == [1, 3, 5])
    ensures CallCount(b.trace, FinalNotice) == (if b.outcome == Failed then 1 else 0)
    ensures multiset(b.trace)[Marked(id)] <= (if id in ledger then 0 else 1)
    ensures b.ledger == (if Marked(id) in b.trace then ledger + {id} else ledger)
    ensures b.outcome == Failed ==> Cleaned in b.trace
  {
    var trace: seq<Event> := [];
    var l := ledger;
    var k := 0;
    outs := [];
    while k < MaxRetries
      invariant 0 <= k <= MaxRetries
      invariant |outs| == k && FailedSoFar(id, ledger, ok, outs)
      invariant id in l <==> KnownBefore(id, ledger, ok, k)
      invariant Waits(trace) == Schedule(0, k) && CallCount(trace, FinalNotice) == 0
      invariant multiset(trace)[Marked(id)] <= (if id in ledger then 0 else 1)
      invariant l == (if Marked(id) in trace then ledger + {id} else ledger)
      invariant k >= 1 ==> Cleaned in trace
    {
      var q := RetryAttempt(id, ledger, ok(k), k, trace, l);
      if q.outcome != Failed {
        FailedSoFarStop(id, ledger, ok, outs, id in l, q.outcome);
        StoppedEarly(q, outs);
        return q, outs + [q.outcome];
      }
      FailedSoFarExtend(id, ledger, ok, outs, id in l);
      trace, l, outs := q.trace, q.ledger, outs + [Failed];
      k := k + 1;
    }
    var last := Call(FinalNotice, ok(k)(FinalNotice));
    FinalNoticeTrace(trace, last, id);
    FailedSoFarExhausted(id, ledger, ok, outs);
    b := Processed(trace + [last], l, Failed);
  }

  /** A loop that stops at its `k + 1`-th attempt has slept once per attempt
      and sent no final notice. */
  lemma StoppedEarly(q: Processed, outs: seq<Outcome>)
    requires |outs| < MaxRetries && q.outcome != Failed
    requires Waits(q.trace) == Schedule(0, |outs| + 1) && CallCount(q.trace, FinalNotice) == 0
    ensures var r := outs + [q.outcome];
            |Waits(q.trace)| == |r| && q.outcome == r[|r| - 1]
    ensures var w := Waits(q.trace);
            1 <= |w| <= MaxRetries && w == Schedule(0, |w|) && (q.outcome == Failed ==> w == [1, 3, 5])
    ensures CallCount(q.trace, FinalNotice) == (if q.outcome == Failed then 1 else 0)
  {
  }

  /** `background_process` for `url`. */
  method Background(url: string, ledger: set<string>, md5: Digest, ok: nat -> Oracle) returns (b: Processed)
    ensures multiset(b.trace)[Marked(ExtractVideoId(url, md5))] <= 1
    ensures b.ledger == (if Marked(ExtractVideoId(url, md5)) in b.trace then Mark(ledger, url, md5) else ledger)
    ensures b.outcome == Completed ==> IsDuplicate(b.ledger, url, md5)
    ensures IsDuplicate(ledger, url, md5) ==> b.ledger == ledger
  {
    var outs;
    b, outs := RetryLoop(ExtractVideoId(url, md5), ledger, ok);
  }

  // ---------------------------------------------------------------------
  // HTTP endpoints
  // ---------------------------------------------------------------------

  /** Status of the single-file bot's `/process_instagram`; `netloc` is the
      network location of `url`, `admin` the configured chat id. The
      background job starts exactly on 202. */
  function FileEndpoint(url: Option<string>, netloc: string, admin: Option<int>): (status: int)
    ensures status == 400 <==> url.None? || url.value == [] || !Contains(Lower(netloc), "instagram.com")
    ensures status == 500 <==> status != 400 && (admin.None? || admin.value == 0)
    ensures status == 202 <==> status != 400 && status != 500
  {
    if url.None? || url.value == [] then 400
    else if !Contains(Lower(netloc), "instagram.com") then 400
    else if admin.None? || admin.value == 0 then 500
    else 202
  }

  /** The endpoint and the Telegram handler filter on the same host test. */
  lemma EndpointAgreesWithHandler(text: string, netloc: string, admin: int, ledger: set<string>, md5: Digest, ok: Oracle)
    requires admin != 0 && text != []
    ensures FileEndpoint(Some(text), netloc, Some(admin)) == 202 <==>
              HandleFileMessage(text, netloc, ledger, md5, ok).trace != [Call(ReplyNotInstagram, ok(ReplyNotInstagram))]
  {
    if Contains(Lower(netloc), "instagram.com") {
      var p := ProcessUrl(Strip(text), ledger, md5, ok);
      assert p.trace[0] != Call(ReplyNotInstagram, ok(ReplyNotInstagram)) by {
        NoticeLoopIsNotices(ok);
        AttemptStartsWithCheck(ExtractVideoId(Strip(text), md5), ledger, ok, NoticeLoop(0, ok));
      }
    }
  }

  /** Every attempt opens with the duplicate report or the pipeline. */
  lemma AttemptStartsWithCheck(id: string, ledger: set<string>, ok: Oracle, notices: seq<Event>)
    requires IsNotices(notices)
    ensures var p := Attempt(id, ledger, ok, notices);
            |p.trace| > 0 && p.trace[0].Call? && (p.trace[0].step == ReportDuplicate || p.trace[0].step == Prepare)
  {
    if id !in ledger {
      FilePipelineUploadsLast();
      PublishAttemptStartsWithRun(FilePipeline, id, ledger, ok, notices);
      assert RunSteps(FilePipeline, ok).events[0] == Call(Prepare, ok(Prepare));
    }
  }

  /** A publishing attempt opens with its pipeline's first call. */
  lemma PublishAttemptStartsWithRun(steps: seq<Step>, id: string, ledger: set<string>, ok: Oracle, notices: seq<Event>)
    requires UploadsLast(steps) && id !in ledger && IsNotices(notices)
    ensures var t := PublishAttempt(steps, id, ledger, ok, notices).trace;
            |RunSteps(steps, ok).events| > 0 && |t| > 0 && t[0] == RunSteps(steps, ok).events[0]
  {
    var run := RunSteps(steps, ok);
    var t := PublishAttempt(steps, id, ledger, ok, notices).trace;
    assert |run.events| > 0;
    if !run.completed {
      assert t == run.events + notices + [Cleaned];
    } else if ok(ReportSuccess) {
      assert t == run.events + [Marked(id), Cleaned] + [Call(ReportSuccess, true)];
    } else {
      assert t == run.events + [Marked(id), Cleaned] + [Call(ReportSuccess, false)] + notices + [Cleaned];
    }
  }

  /** Status of the streaming bot's `/process_instagram`: no host parsing, a
      plain substring test on the raw parameter. */
  function MainEndpoint(url: Option<string>): (status: int)
    ensures status == 202 <==> url.Some? && url.value != [] && Contains(url.value, "instagram.com")
    ensures status != 202 ==> status == 400
  {
    if url.None? || url.value == [] then 400
    else if !Contains(url.value, "instagram.com") then 400
    else 202
  }

  /** The work of the streaming bot's HTTP background thread: no duplicate
      check; mark and clean up only when every step returns. */
  const MainBackgroundSteps: seq<Step> := [Download, Compress, Package, Upload]

  function MainBackground(url: string, ledger: set<string>, md5: Digest, ok: Oracle): (h: Handled)
    ensures |h.trace| > 0 && h.trace[0] == Call(Download, ok(Download))
    ensures Cleaned in h.trace <==> AllSucceed(MainBackgroundSteps, ok)
    ensures Marked(ExtractVideoId(url, md5)) in h.trace <==> AllSucceed(MainBackgroundSteps, ok)
    ensures h.ledger == (if AllSucceed(MainBackgroundSteps, ok) then Mark(ledger, url, md5) else ledger)
  {
    var run := RunSteps(MainBackgroundSteps, ok);
    if run.completed then
      Handled(run.events + [Marked(ExtractVideoId(url, md5)), Cleaned], Mark(ledger, url, md5))
    else Handled(run.events, ledger)
  }

  /** The HTTP path of the streaming bot repeats the work for content already
      in the ledger, doing exactly what it does for new content. */
  lemma MainBackgroundIgnoresLedger(url: string, l1: set<string>, l2: set<string>, md5: Digest, ok: Oracle)
    ensures MainBackground(url, l1, md5, ok).trace == MainBackground(url, l2, md5, ok).trace
  {
  }
}

=== FILE: Ledger.dfy ===
/** `DuplicateTracker`: the persisted set of content ids already published.
    The file holds `{"processed_videos": [...]}`, rewritten whole on each
    update; the set is what the bots consult. */
module Ledger {
  import opened Base
  import opened ContentId

  /** The ledger file: absent, unreadable (bad JSON, I/O error), or a JSON
      object whose `processed_videos` key may be missing. */
  datatype LedgerFile = Absent | Unreadable | Stored(processedVideos: Option<seq<string>>)

  /** The constructor's load: the listed ids, or the empty set when there is
      nothing readable. */
  function Load(f: LedgerFile): (ids: set<string>)
    ensures f.Stored? && f.processedVideos.Some? ==>
              forall x :: x in ids <==> x in f.processedVideos.value
    ensures !(f.Stored? && f.processedVideos.Some?) ==> ids == {}
  {
    match f
    case Stored(Some(list)) => set x | x in list
    case _ => {}
  }

  /** `is_duplicate`. */
  predicate IsDuplicate(ledger: set<string>, url: string, md5: Digest) {
    ExtractVideoId(url, md5) in ledger
  }

  /** The set part of `mark_processed`. */
  function Mark(ledger: set<string>, url: string, md5: Digest): (l: set<string>)
    ensures ledger <= l && |l - ledger| <= 1
    ensures l - ledger <= {ExtractVideoId(url, md5)}
    ensures forall u :: ExtractVideoId(u, md5) == ExtractVideoId(url, md5) ==> IsDuplicate(l, u, md5)
    ensures forall u :: IsDuplicate(l, u, md5) <==>
              IsDuplicate(ledger, u, md5) || ExtractVideoId(u, md5) == ExtractVideoId(url, md5)
  {
    ledger + {ExtractVideoId(url, md5)}
  }

  /** `list(self.set)`: the ids in some order, each once. */
  method Serialize(ledger: set<string>) returns (list: seq<string>)
    ensures forall x :: x in list <==> x in ledger
    ensures forall i, j :: 0 <= i < j < |list| ==> list[i] != list[j]
    ensures |list| == |ledger|
  {
    list := [];
    var rest := ledger;
    while rest != {}
      invariant forall x :: x in ledger <==> x in list || x in rest
      invariant forall x :: x in list ==> x !in rest
      invariant forall i, j :: 0 <= i < j < |list| ==> list[i] != list[j]
      invariant |list| + |rest| == |ledger|
      decreases |rest|
    {
      var x :| x in rest;
      list := list + [x];
      rest := rest - {x};
    }
  }

  /** `save`: the whole ledger is written and any error is swallowed. A
      failed open leaves the old file; a write that fails after the open
      truncated the file leaves one that no longer parses, so the next load
      forgets every id. */
  method Save(ledger: set<string>, previous: LedgerFile, w: WriteOutcome) returns (f: LedgerFile)
    ensures w == Written ==> Load(f) == ledger
    ensures w == OpenFailed ==> f == previous
    ensures w == WriteFailed ==> f == Unreadable && Load(f) == {}
  {
    match w
    case Written =>
      var list := Serialize(ledger);
      f := Stored(Some(list));
    case OpenFailed =>
      f := previous;
    case WriteFailed =>
      f := Unreadable;
  }

  /** `mark_processed`: add the id, then save. */
  method MarkProcessed(ledger: set<string>, file: LedgerFile, url: string, md5: Digest, w: WriteOutcome)
    returns (l: set<string>, f: LedgerFile)
    ensures l == Mark(ledger, url, md5)
    ensures IsDuplicate(l, url, md5)
    ensures w == Written ==> Load(f) == l
    ensures w == OpenFailed ==> f == file
    ensures w == WriteFailed ==> forall u :: !IsDuplicate(Load(f), u, md5)
  {
    l := Mark(ledger, url, md5);
    f := Save(l, file, w);
  }

  /** Marking twice is marking once. */
  lemma MarkIdempotent(ledger: set<string>, url: string, md5: Digest)
    ensures Mark(Mark(ledger, url, md5), url, md5) == Mark(ledger, url, md5)
  {
  }

  /** Marking one URL makes every URL with the same post or reel segment a
      duplicate. */
  lemma MarkCoversSameSegment(ledger: set<string>, pre1: string, m1: string, rest1: string,
                              pre2: string, m2: string, rest2: string, seg: string, md5: Digest)
    requires m1 == "/p/" || m1 == "/reel/"
    requires m2 == "/p/" || m2 == "/reel/"
    requires SafeName(seg)
    requires |rest1| == 0 || !IdChar(rest1[0])
    requires |rest2| == 0 || !IdChar(rest2[0])
    requires forall j :: 0 <= j < |pre1| ==> MatchAt(pre1 + m1 + seg + rest1, j).None?
    requires forall j :: 0 <= j < |pre2| ==> MatchAt(pre2 + m2 + seg + rest2, j).None?
    ensures IsDuplicate(Mark(ledger, pre1 + m1 + seg + rest1, md5), pre2 + m2 + seg + rest2, md5)
  {
    SameSegmentSameId(pre1, m1, rest1, pre2, m2, rest2, seg, md5);
  }
}

=== FILE: Packaging.dfy ===
/** `generate_hls`: how the files of the segmented stream are named. The
    encoder itself is external; this module fixes the names it is told to
    produce. */
module Packaging {
  import opened Base
  import opened Text

  /** The `n`-th segment file, pattern `<id>_%05d.ts`. */
  function SegmentName(id: string, n: nat): (name: string)
    ensures EndsWith(name, ".ts")
    ensures |name| >= |id| + 9
    ensures name[..|id|] == id && name[|id|] == '_'
  {
    id + "_" + Pad5(n) + ".ts"
  }

  /** The playlist file, `<id>.m3u8`. */
  function PlaylistName(id: string): string {
    id + ".m3u8"
  }

  /** The segment number encoded in `name`, if `name` has the shape of one of
      `id`'s segment files. */
  function SegmentNumber(id: string, name: string): (n: Option<nat>)
    ensures n.Some? ==> |name| >= |id| + 9 && EndsWith(name, ".ts")
  {
    if |name| >= |id| + 9 && name[..|id|] == id && name[|id|] == '_' && EndsWith(name, ".ts")
       && AllDigits(name[|id| + 1..|name| - 3])
    then Some(ParseDecimal(name[|id| + 1..|name| - 3]))
    else None
  }

  /** The segment number reads back from every segment name. */
  lemma SegmentNumberRoundTrip(id: string, n: nat)
    ensures SegmentNumber(id, SegmentName(id, n)) == Some(n)
  {
    var name := SegmentName(id, n);
    assert name[|id| + 1..|name| - 3] == Pad5(n);
    Pad5RoundTrip(n);
  }

  /** Different segment numbers give different file names. */
  lemma SegmentNamesDistinct(id: string, n: nat, m: nat)
    requires n != m
    ensures SegmentName(id, n) != SegmentName(id, m)
  {
    SegmentNumberRoundTrip(id, n);
    SegmentNumberRoundTrip(id, m);
  }

  /** The files of a packaged stream of `count` segments, in playback order:
      the `i`-th file reads back as segment `i`, so the files are numbered
      0 to `count - 1` with no gap and no repeat. */
  function Segments(id: string, count: nat): (names: seq<string>)
    ensures |names| == count
    ensures forall i :: 0 <= i < count ==> names[i] == SegmentName(id, i)
    ensures forall i :: 0 <= i < count ==> SegmentNumber(id, names[i]) == Some(i)
    ensures forall name :: name in names ==> SegmentNumber(id, name).Some? && SegmentNumber(id, name).value < count
    ensures forall i, j :: 0 <= i < j < count ==> names[i] != names[j]
  {
    NumberedNames(id, count);
    seq(count, i requires 0 <= i => SegmentName(id, i))
  }

  lemma NumberedNames(id: string, count: nat)
    ensures forall i :: 0 <= i < count ==> SegmentNumber(id, SegmentName(id, i)) == Some(i)
  {
    forall i | 0 <= i < count
      ensures SegmentNumber(id, SegmentName(id, i)) == Some(i)
    {
      SegmentNumberRoundTrip(id, i);
    }
  }

  /** No two files of a packaged stream share a name. */
  lemma SegmentsDistinct(id: string, count: nat)
    ensures var names := Segments(id, count);
            forall i, j :: 0 <= i < j < count ==> names[i] != names[j]
  {
    forall i, j | 0 <= i < j < count
      ensures Segments(id, count)[i] != Segments(id, count)[j]
    {
      SegmentNamesDistinct(id, i, j);
    }
  }
}

=== FILE: Planner.dfy ===
/** Compression planning: from the input's size and what the media probe
    reports, the encoder parameters each bot passes to its external encoder,
    and (in the streaming bot) the single fallback re-encode when the output came
    out larger than the input. Python floats are modelled as exact `real`s;
    `int(x)` truncates toward zero. */
module Planner {
  import opened Base

  const MiB: int := 1048576
  /** The planners never ask for less than this video bitrate. */
  const FloorKbps: int := 150

  /** One field of the probe's `format` section: absent, an empty string,
      a string the conversion rejects, or a parsed value. */
  datatype Field<T> = Missing | Blank | Malformed | Present(value: T)

  /** The probe's `duration` (seconds) and `bit_rate` (bits per second);
      a failed probe reports both `Missing`. */
  datatype Probe = Probe(duration: Field<real>, bitRate: Field<int>)

  datatype Preset = Medium | Fast | VeryFast

  /** One row of a tier table: the fraction of the measured bitrate to aim
      for, its cap in kbps, and the CRF and preset to use. */
  datatype Tier = Tier(fraction: real, capKbps: int, crf: int, preset: Preset)

  /** The rate-control arguments of one encoder run. */
  datatype EncodeParams = EncodeParams(videoKbps: int, maxrateKbps: int, bufsizeKbps: int,
                                       crf: Option<int>, preset: Preset, audioKbps: int)

  /** Why compression raised. */
  datatype CompressError = UnparsableDuration | UnparsableBitrate | EncoderFailed

  /** What one run of the external encoder did. */
  datatype Encode = Encoded(outBytes: nat) | EncodeFailed

  function SizeMb(bytes: nat): real {
    bytes as real / MiB as real
  }

  /** Python's `int(x)` on a float: truncation toward zero. */
  function Trunc(x: real): (n: int)
    ensures x >= 0.0 ==> n as real <= x < n as real + 1.0
    ensures x < 0.0 ==> n as real - 1.0 < x <= n as real
  {
    if x >= 0.0 then x.Floor else -((-x).Floor)
  }

  function MinR(a: real, b: real): real { if a <= b then a else b }
  function MaxR(a: real, b: real): real { if a >= b then a else b }

  /** The size tier, smallest inputs first: 0 for at most 5 MB, 1 above
      5 MB, 2 above 20 MB, 3 above 50 MB. */
  function TierIndex(sizeMb: real): (k: nat)
    ensures k < 4
    ensures k == 0 <==> sizeMb <= 5.0
    ensures k >= 2 <==> sizeMb > 20.0
    ensures k == 3 <==> sizeMb > 50.0
  {
    if sizeMb > 50.0 then 3 else if sizeMb > 20.0 then 2 else if sizeMb > 5.0 then 1 else 0
  }

  lemma TierIndexMonotone(s1: real, s2: real)
    requires s1 <= s2
    ensures TierIndex(s1) <= TierIndex(s2)
  {
  }

  // ---------------------------------------------------------------------
  // The streaming bot (`aggressive_compress`)
  // ---------------------------------------------------------------------

  /** The streaming bot's tier table. */
  function MainTier(k: nat): (t: Tier)
    requires k < 4
    ensures t.capKbps >= FloorKbps && t.preset == Medium && t.fraction > 0.0
  {
    if k == 0 then Tier(0.5, 1000, 26, Medium)
    else if k == 1 then Tier(0.45, 1500, 27, Medium)
    else if k == 2 then Tier(0.4, 2000, 28, Medium)
    else Tier(0.35, 1500, 30, Medium)
  }

  /** `float(duration or 0.0)`: `None` when the conversion raises. */
  function MainDuration(f: Field<real>): Option<real> {
    match f
    case Missing => Some(0.0)
    case Blank => Some(0.0)
    case Malformed => None
    case Present(d) => Some(d)
  }

  /** The measured bitrate in kbps: the probe's `bit_rate // 1000` unless
      that is absent, unparsable or zero; then the size/duration estimate,
      or 2000 when the duration is not positive. */
  function MainMeasuredKbps(bitRate: Field<int>, duration: real, sizeMb: real): (kbps: int)
    ensures bitRate.Present? && !(0 <= bitRate.value < 1000) ==> kbps == bitRate.value / 1000
    ensures (!bitRate.Present? || 0 <= bitRate.value < 1000) && duration > 0.0 ==>
              kbps as real <= sizeMb * 8192.0 / duration < kbps as real + 1.0 || sizeMb < 0.0
    ensures (!bitRate.Present? || 0 <= bitRate.value < 1000) && duration <= 0.0 ==> kbps == 2000
  {
    var reported := if bitRate.Present? then bitRate.value / 1000 else 0;
    if reported != 0 then reported
    else if duration > 0.0 then Trunc(sizeMb * 8192.0 / duration)
    else 2000
  }

  /** `max(int(min(x, cap)), 150)`. */
  function Clamp(x: real, cap: int): (kbps: int)
    requires cap >= FloorKbps
    ensures FloorKbps <= kbps <= cap
  {
    var y := Trunc(MinR(x, cap as real));
    if y >= FloorKbps then y else FloorKbps
  }

  /** The clamp is the cap above it, the floor below it, and rounds down in
      between. */
  lemma ClampCases(x: real, cap: int)
    requires cap >= FloorKbps
    ensures x >= cap as real ==> Clamp(x, cap) == cap
    ensures FloorKbps as real <= x <= cap as real ==> Clamp(x, cap) == x.Floor
    ensures x < FloorKbps as real ==> Clamp(x, cap) == FloorKbps
  {
  }

  lemma ClampMonotone(x1: real, x2: real, cap: int)
    requires cap >= FloorKbps && x1 <= x2
    ensures Clamp(x1, cap) <= Clamp(x2, cap)
  {
    TruncMonotone(MinR(x1, cap as real), MinR(x2, cap as real));
  }

  /** `cur * fraction`: the measured bitrate scaled by a tier's fraction. */
  function Scaled(cur: int, t: Tier): real {
    cur as real * t.fraction
  }

  /** `max(int(min(cur * fraction, cap)), 150)`. */
  function MainTarget(cur: int, t: Tier): (kbps: int)
    requires t.capKbps >= FloorKbps
    ensures FloorKbps <= kbps <= t.capKbps
  {
    Clamp(Scaled(cur, t), t.capKbps)
  }

  /** The target is the cap when the scaled bitrate reaches it, the floor
      when the scaled bitrate is below it, and the scaled bitrate rounded
      down in between. */
  lemma MainTargetCases(cur: int, t: Tier)
    requires t.capKbps >= FloorKbps
    ensures var x := cur as real * t.fraction;
            (x >= t.capKbps as real ==> MainTarget(cur, t) == t.capKbps) &&
            (FloorKbps as real <= x <= t.capKbps as real ==> MainTarget(cur, t) == x.Floor) &&
            (x < FloorKbps as real ==> MainTarget(cur, t) == FloorKbps)
  {
    ClampCases(cur as real * t.fraction, t.capKbps);
  }

  /** The first encode's arguments for a target bitrate. */
  function MainParams(target: int, t: Tier): (p: EncodeParams)
    requires target >= FloorKbps
    ensures p.videoKbps == target
    ensures p.videoKbps <= p.maxrateKbps <= p.bufsizeKbps
    ensures p.maxrateKbps as real <= 1.2 * target as real < p.maxrateKbps as real + 1.0
    ensures p.bufsizeKbps == 2 * target
    ensures p.crf == Some(t.crf) && p.preset == t.preset && p.audioKbps == 96
  {
    EncodeParams(target, Trunc(target as real * 1.2), Trunc(target as real * 2.0), Some(t.crf), t.preset, 96)
  }

  /** The streaming bot's plan; `Err` when the duration does not parse. */
  function MainPlan(sizeBytes: nat, probe: Probe): (r: Result<EncodeParams, CompressError>)
    ensures r.Err? <==> probe.duration.Malformed?
    ensures r.Ok? ==> var t := MainTier(TierIndex(SizeMb(sizeBytes)));
              FloorKbps <= r.value.videoKbps <= t.capKbps &&
              r.value.crf == Some(t.crf) &&
              r.value.videoKbps <= r.value.maxrateKbps <= r.value.bufsizeKbps
  {
    match MainDuration(probe.duration)
    case None => Err(UnparsableDuration)
    case Some(d) =>
      var size := SizeMb(sizeBytes);
      var t := MainTier(TierIndex(size));
      Ok(MainParams(MainTarget(MainMeasuredKbps(probe.bitRate, d, size), t), t))
  }

  /** The fallback re-encode: `max(150, int(0.6 * target))`, capped at that
      rate, with the faster preset, no CRF and 64 kbps audio. */
  function FallbackParams(target: int): (p: EncodeParams)
    requires target >= FloorKbps
    ensures FloorKbps <= p.videoKbps <= target
    ensures target > FloorKbps ==> p.videoKbps < target
    ensures p.videoKbps == FloorKbps <==> target as real * 0.6 < (FloorKbps + 1) as real
    ensures p.videoKbps > FloorKbps ==>
              p.videoKbps as real <= target as real * 0.6 < p.videoKbps as real + 1.0
    ensures p.maxrateKbps == p.videoKbps && p.bufsizeKbps == 2 * p.videoKbps
    ensures p.crf.None? && p.preset == VeryFast && p.audioKbps == 64
  {
    var lower := Trunc(target as real * 0.6);
    var v := if FloorKbps >= lower then FloorKbps else lower;
    EncodeParams(v, v, v * 2, None, VeryFast, 64)
  }

  /** What `aggressive_compress` ran: the first encode, and the fallback
      re-encode if there was one. */
  datatype Compression = Compression(first: EncodeParams, fallback: Option<EncodeParams>)

  /** `aggressive_compress`: plan, encode, and re-encode once, without
      checking the result again, when the output is larger than the input.
      The outcome of the fallback run is swallowed, so it is not an input. */
  function AggressiveCompress(inBytes: nat, probe: Probe, first: Encode): (r: Result<Compression, CompressError>)
    ensures r.Ok? <==> !probe.duration.Malformed? && first.Encoded?
    ensures r.Ok? ==> MainPlan(inBytes, probe) == Ok(r.value.first)
    ensures r.Ok? ==> (r.value.fallback.Some? <==> first.outBytes > inBytes)
    ensures r.Ok? && r.value.fallback.Some? ==>
              FloorKbps <= r.value.fallback.value.videoKbps <= r.value.first.videoKbps &&
              (r.value.first.videoKbps > FloorKbps ==> r.value.fallback.value.videoKbps < r.value.first.videoKbps)
    ensures r.Ok? && r.value.fallback.Some? ==> r.value.fallback.value == FallbackParams(r.value.first.videoKbps)
  {
    match MainPlan(inBytes, probe)
    case Err(e) => Err(e)
    case Ok(p) =>
      match first
      case EncodeFailed => Err(EncoderFailed)
      case Encoded(out) =>
        assert SizeMb(out) > SizeMb(inBytes) <==> out > inBytes;
        if SizeMb(out) > SizeMb(inBytes) then Ok(Compression(p, Some(FallbackParams(p.videoKbps))))
        else Ok(Compression(p, None))
  }

  /** Larger inputs get a smaller or equal fraction and a higher or equal CRF. */
  lemma MainTiersTightenWithSize(s1: real, s2: real)
    requires s1 <= s2
    ensures MainTier(TierIndex(s2)).fraction <= MainTier(TierIndex(s1)).fraction
    ensures MainTier(TierIndex(s1)).crf <= MainTier(TierIndex(s2)).crf
  {
    TierIndexMonotone(s1, s2);
  }

  /** Within one tier, a higher measured bitrate never lowers the target. */
  lemma MainTargetMonotone(c1: int, c2: int, k: nat)
    requires k < 4 && c1 <= c2
    ensures MainTarget(c1, MainTier(k)) <= MainTarget(c2, MainTier(k))
  {
    TargetMonotone(c1, c2, MainTier(k));
  }

  lemma TargetMonotone(c1: int, c2: int, t: Tier)
    requires t.capKbps >= FloorKbps && t.fraction >= 0.0 && c1 <= c2
    ensures MainTarget(c1, t) <= MainTarget(c2, t)
  {
    ScaleMonotone(c1 as real, c2 as real, t.fraction);
    ClampMonotone(Scaled(c1, t), Scaled(c2, t), t.capKbps);
  }

  lemma ScaleMonotone(a: real, b: real, f: real)
    requires a <= b && f >= 0.0
    ensures a * f <= b * f
  {
    assert b * f - a * f == (b - a) * f;
    NonNegativeProduct(b - a, f);
  }

  lemma NonNegativeProduct(a: real, b: real)
    requires a >= 0.0 && b >= 0.0
    ensures a * b >= 0.0
  {
  }

  lemma TruncMonotone(a: real, b: real)
    requires a <= b
    ensures Trunc(a) <= Trunc(b)
  {
  }

  /** The streaming bot's caps are not monotone in size: with the same
      probe, a 30 MiB input is planned at 2000 kbps and a 10 MiB one at
      1500, and a 60 MiB input falls back to 1500. */
  lemma MainCapsNotMonotone()
    ensures MainPlan(10 * MiB, Probe(Present(60.0), Present(10000000))).value.videoKbps == 1500
    ensures MainPlan(30 * MiB, Probe(Present(60.0), Present(10000000))).value.videoKbps == 2000
    ensures MainPlan(60 * MiB, Probe(Present(60.0), Present(10000000))).value.videoKbps == 1500
  {
  }

  /** Equal sizes never trigger the fallback. */
  lemma EqualSizeKeepsFirstEncode(inBytes: nat, probe: Probe)
    requires !probe.duration.Malformed?
    ensures AggressiveCompress(inBytes, probe, Encoded(inBytes)).value.fallback.None?
  {
  }

  // ---------------------------------------------------------------------
  // The single-file bot (`compress_video`)
  // ---------------------------------------------------------------------

  /** The single-file bot's tier table. */
  function FileTier(k: nat): (t: Tier)
    requires k < 4
    ensures t.capKbps >= FloorKbps
  {
    if k == 0 then Tier(0.35, 400, 31, Fast)
    else if k == 1 then Tier(0.3, 500, 32, Fast)
    else if k == 2 then Tier(0.25, 700, 33, Medium)
    else Tier(0.2, 600, 34, Medium)
  }

  /** `float(format.get('duration', 30))`: `None` when the conversion raises. */
  function FileDuration(f: Field<real>): Option<real> {
    match f
    case Missing => Some(30.0)
    case Blank => None
    case Malformed => None
    case Present(d) => Some(d)
  }

  /** The measured bitrate: `int(bit_rate) // 1000` whenever `bit_rate` is
      a non-empty string (raising when it does not parse), else the
      size/duration estimate, or 1000 when the duration is not positive. */
  function FileMeasuredKbps(bitRate: Field<int>, duration: real, sizeMb: real): (r: Result<int, CompressError>)
    ensures bitRate.Present? ==> r == Ok(bitRate.value / 1000)
    ensures bitRate.Malformed? <==> r.Err?
    ensures (bitRate.Missing? || bitRate.Blank?) && duration <= 0.0 ==> r == Ok(1000)
    ensures (bitRate.Missing? || bitRate.Blank?) && duration > 0.0 && sizeMb >= 0.0 ==>
              r.Ok? && r.value as real <= sizeMb * 8192.0 / duration < r.value as real + 1.0
  {
    match bitRate
    case Present(b) => Ok(b / 1000)
    case Malformed => Err(UnparsableBitrate)
    case _ => if duration > 0.0 then Ok(Trunc(sizeMb * 8192.0 / duration)) else Ok(1000)
  }

  /** `max(min(cur * fraction, cap), 150)`, kept as a float. */
  function FileTarget(cur: int, t: Tier): (x: real)
    requires t.capKbps >= FloorKbps
    ensures FloorKbps as real <= x <= t.capKbps as real
    ensures FloorKbps as real <= cur as real * t.fraction <= t.capKbps as real ==> x == cur as real * t.fraction
    ensures cur as real * t.fraction >= t.capKbps as real ==> x == t.capKbps as real
    ensures cur as real * t.fraction <= FloorKbps as real ==> x == FloorKbps as real
  {
    MaxR(MinR(cur as real * t.fraction, t.capKbps as real), FloorKbps as real)
  }

  /** The encode arguments: `int(t)`, `int(1.1 t)`, `int(1.5 t)`. */
  function FileParams(target: real, t: Tier): (p: EncodeParams)
    requires target >= FloorKbps as real
    ensures p.videoKbps as real <= target < p.videoKbps as real + 1.0
    ensures p.maxrateKbps as real <= 1.1 * target < p.maxrateKbps as real + 1.0
    ensures p.bufsizeKbps as real <= 1.5 * target < p.bufsizeKbps as real + 1.0
    ensures FloorKbps <= p.videoKbps <= p.maxrateKbps <= p.bufsizeKbps
    ensures p.crf == Some(t.crf) && p.preset == t.preset && p.audioKbps == 128
  {
    EncodeParams(Trunc(target), Trunc(target * 1.1), Trunc(target * 1.5), Some(t.crf), t.preset, 128)
  }

  /** `compress_video`: plan and encode once; there is no fallback pass. */
  function CompressVideo(inBytes: nat, probe: Probe, run: Encode): (r: Result<EncodeParams, CompressError>)
    ensures r.Ok? <==> FileDuration(probe.duration).Some? && !probe.bitRate.Malformed? && run.Encoded?
    ensures r.Ok? ==> var t := FileTier(TierIndex(SizeMb(inBytes)));
              FloorKbps <= r.value.videoKbps <= t.capKbps &&
              r.value.videoKbps <= r.value.maxrateKbps <= r.value.bufsizeKbps &&
              r.value.crf == Some(t.crf) && r.value.preset == t.preset
  {
    var size := SizeMb(inBytes);
    match FileDuration(probe.duration)
    case None => Err(UnparsableDuration)
    case Some(d) =>
      match FileMeasuredKbps(probe.bitRate, d, size)
      case Err(e) => Err(e)
      case Ok(cur) =>
        var t := FileTier(TierIndex(size));
        var target := FileTarget(cur, t);
        if run.EncodeFailed? then Err(EncoderFailed) else Ok(FileParams(target, t))
  }

  /** The single-file bot's bitrate is the tier cap when the scaled
      measurement reaches it, 150 when the scaled measurement is at most
      150, and the scaled measurement rounded down in between. */
  lemma FileRateCases(cur: int, t: Tier)
    requires t.capKbps >= FloorKbps
    ensures var x := cur as real * t.fraction;
            var v := FileParams(FileTarget(cur, t), t).videoKbps;
            (x >= t.capKbps as real ==> v == t.capKbps) &&
            (x <= FloorKbps as real ==> v == FloorKbps) &&
            (FloorKbps as real <= x <= t.capKbps as real ==> v == x.Floor)
  {
    var x := cur as real * t.fraction;
    var target := FileTarget(cur, t);
    var v := FileParams(target, t).videoKbps;
    if FloorKbps as real <= x <= t.capKbps as real {
      assert target == x;
      assert v as real <= x < v as real + 1.0;
    }
  }

  /** Larger inputs get a smaller or equal fraction and a higher or equal CRF. */
  lemma FileTiersTightenWithSize(s1: real, s2: real)
    requires s1 <= s2
    ensures FileTier(TierIndex(s2)).fraction <= FileTier(TierIndex(s1)).fraction
    ensures FileTier(TierIndex(s1)).crf <= FileTier(TierIndex(s2)).crf
  {
    TierIndexMonotone(s1, s2);
  }

  /** The single-file bot's caps are not monotone in size either: with the
      same probe, a 30 MiB input is planned at 700 kbps and a 60 MiB one at
      600. */
  lemma FileCapsNotMonotone(run: Encode)
    requires run.Encoded?
    ensures CompressVideo(10 * MiB, Probe(Present(60.0), Present(10000000)), run).value.videoKbps == 500
    ensures CompressVideo(30 * MiB, Probe(Present(60.0), Present(10000000)), run).value.videoKbps == 700
    ensures CompressVideo(60 * MiB, Probe(Present(60.0), Present(10000000)), run).value.videoKbps == 600
  {
  }

  /** A reported bit rate under 1000 bps measures as 0 kbps and so is
      planned at the 150 kbps floor. */
  lemma FileSubKilobitRateHitsFloor(inBytes: nat, bps: int, seconds: real, run: Encode)
    requires 0 <= bps < 1000 && run.Encoded?
    ensures CompressVideo(inBytes, Probe(Present(seconds), Present(bps)), run).value.videoKbps == FloorKbps
  {
  }
}

=== FILE: Publish.dfy ===
/** Publishing to the storage backend: remote naming, public-link
    resolution in both bots, the streaming bot's segment-to-link map, and
    the rewrite of the playlist's segment lines into those links. Playlist
    lines follow section 4.1 of RFC 8216: each is a URI, blank, or starts
    with `#`. */
module Publish {
  import opened Base
  import opened Text
  import opened ContentId
  import opened Packaging

  const RemoteBase := "/hls"
  /** Marker of the backend's "a link for this path already exists" error. */
  const AlreadyExistsMarker := "shared_link_already_exists"

  function RemoteFolder(id: string): string {
    RemoteBase + "/" + id
  }

  function RemotePath(id: string, name: string): (p: string)
    ensures |p| > |RemoteFolder(id)|
    ensures p[..|RemoteFolder(id)| + 1] == RemoteFolder(id) + "/"
    ensures p[|RemoteFolder(id)| + 1..] == name
  {
    RemoteFolder(id) + "/" + name
  }

  /** `url.replace('?dl=0', '?raw=1')`. */
  function RawLink(url: string): string {
    ReplaceAll(url, "?dl=0", "?raw=1")
  }

  /** A shared link of the usual shape `<base>?dl=0` becomes `<base>?raw=1`,
      and a link without the marker is kept as is. */
  lemma {:induction false} RawLinkOfSharedLink(base: string)
    requires forall i :: 0 <= i < |base| ==> base[i] != '?'
    ensures RawLink(base + "?dl=0") == base + "?raw=1"
    decreases |base|
  {
    var s := base + "?dl=0";
    if |base| == 0 {
      assert s[..5] == "?dl=0";
      assert s[5..] == "";
    } else {
      assert s[0] != '?';
      assert s[..5] != "?dl=0" by { assert s[..5][0] == s[0]; }
      assert s[1..] == base[1..] + "?dl=0";
      RawLinkOfSharedLink(base[1..]);
      assert [base[0]] + (base[1..] + "?raw=1") == base + "?raw=1";
    }
  }

  // ---------------------------------------------------------------------
  // Link resolution
  // ---------------------------------------------------------------------

  /** The listing call made after an "already exists" error. */
  datatype Listing = Listed(urls: seq<string>) | ListFailed

  /** The link-creation call: a new link, or an error with its message. */
  datatype LinkReply = Created(url: string) | LinkError(message: string)

  /** What happened to one segment: its upload, its link creation, and the
      listing that would answer an "already exists" error. */
  datatype SegmentReply = SegmentReply(uploaded: bool, link: LinkReply, listing: Listing)

  predicate AlreadyExists(link: LinkReply) {
    link.LinkError? && Contains(link.message, AlreadyExistsMarker)
  }

  /** The streaming bot's link for one segment: a raw link, no link (errors
      other than "already exists", or an empty listing), or an exception
      that aborts the folder upload (the listing call raised). */
  datatype Resolution = Linked(url: string) | Unlinked | Aborted

  function ResolveSegmentLink(link: LinkReply, listing: Listing): (r: Resolution)
    ensures r.Linked? <==> link.Created? || (AlreadyExists(link) && listing.Listed? && |listing.urls| > 0)
    ensures r.Aborted? <==> AlreadyExists(link) && listing.ListFailed?
    ensures link.Created? ==> r == Linked(RawLink(link.url))
    ensures r.Linked? && !link.Created? ==> r.url == RawLink(listing.urls[0])
  {
    match link
    case Created(u) => Linked(RawLink(u))
    case LinkError(m) =>
      if !Contains(m, AlreadyExistsMarker) then Unlinked
      else match listing
        case ListFailed => Aborted
        case Listed(us) => if |us| > 0 then Linked(RawLink(us[0])) else Unlinked
  }

  /** The single-file bot's failures of `upload_to_dropbox`. */
  datatype UploadError = UploadFailed | LinkRefused

  /** `upload_to_dropbox` after the file is read: upload to `/<name>`, then
      create a link, reusing the first listed one on "already exists"; every
      other outcome raises. No `?dl=0` rewrite happens here. */
  function UploadToDropbox(uploaded: bool, link: LinkReply, listing: Listing): (r: Result<string, UploadError>)
    ensures r.Ok? <==> uploaded && (link.Created? || (AlreadyExists(link) && listing.Listed? && |listing.urls| > 0))
    ensures r.Ok? && link.Created? ==> r.value == link.url
    ensures r.Ok? && !link.Created? ==> r.value == listing.urls[0]
    ensures !uploaded ==> r == Err(UploadFailed)
  {
    if !uploaded then Err(UploadFailed)
    else match link
      case Created(u) => Ok(u)
      case LinkError(m) =>
        if Contains(m, AlreadyExistsMarker) && listing.Listed? && |listing.urls| > 0 then Ok(listing.urls[0])
        else Err(LinkRefused)
  }

  // ---------------------------------------------------------------------
  // The segment-to-link map
  // ---------------------------------------------------------------------

  /** A segment outcome that raises out of the folder upload. */
  predicate Fatal(r: SegmentReply) {
    !r.uploaded || ResolveSegmentLink(r.link, r.listing).Aborted?
  }

  predicate Distinct(names: seq<string>) {
    forall i, j :: 0 <= i < j < |names| ==> names[i] != names[j]
  }

  /** `segment_urls`: every segment is uploaded and linked in turn; `None`
      when some segment raises. */
  function LinkMap(names: seq<string>, replies: seq<SegmentReply>): (r: Option<map<string, string>>)
    requires |names| == |replies| && Distinct(names)
    ensures r.None? <==> exists i :: 0 <= i < |names| && Fatal(replies[i])
    ensures r.Some? ==> forall k :: k in r.value ==> k in names
    ensures r.Some? ==> forall i :: 0 <= i < |names| ==>
              (names[i] in r.value <==> ResolveSegmentLink(replies[i].link, replies[i].listing).Linked?)
    ensures r.Some? ==> forall i :: 0 <= i < |names| && names[i] in r.value ==>
              r.value[names[i]] == ResolveSegmentLink(replies[i].link, replies[i].listing).url
  {
    if |names| == 0 then Some(map[])
    else if Fatal(replies[0]) then None
    else
      match LinkMap(names[1..], replies[1..])
      case None => None
      case Some(m) =>
        assert forall i :: 1 <= i < |names| ==> names[i] == names[1..][i - 1] && replies[i] == replies[1..][i - 1];
        assert names[0] !in m;
        match ResolveSegmentLink(replies[0].link, replies[0].listing)
        case Linked(u) => Some(m[names[0] := u])
        case _ => Some(m)
  }

  // ---------------------------------------------------------------------
  // Playlist rewrite
  // ---------------------------------------------------------------------

  /** A whole line matched by `^[^#\s].*\.ts$`: it does not start with `#`
      or whitespace and ends in `.ts` after at least one character. */
  predicate IsSegmentLine(line: string) {
    |line| >= 4 && line[0] != '#' && !IsSpace(line[0]) && EndsWith(line, ".ts")
  }

  function RewriteLine(line: string, links: map<string, string>): string {
    if IsSegmentLine(line) && line in links then links[line] else line
  }

  function RewriteLines(lines: seq<string>, links: map<string, string>): (out: seq<string>)
    ensures |out| == |lines|
    ensures forall i :: 0 <= i < |lines| ==> out[i] == RewriteLine(lines[i], links)
  {
    seq(|lines|, i requires 0 <= i < |lines| => RewriteLine(lines[i], links))
  }

  /** The `re.sub` over the playlist text, line by line. */
  function RewritePlaylist(content: string, links: map<string, string>): string {
    JoinLines(RewriteLines(SplitLines(content), links))
  }

  /** The rewrite keeps the number and order of lines; a line changes only
      when it is a segment line with a link, and then becomes that link.
      Comment, tag and blank lines and segments without a link stay
      byte-identical. */
  lemma RewriteKeepsLines(content: string, links: map<string, string>)
    requires forall k :: k in links ==> NoNewline(links[k])
    ensures var ins := SplitLines(content);
            var outs := SplitLines(RewritePlaylist(content, links));
            |outs| == |ins| &&
            (forall i :: 0 <= i < |ins| && IsSegmentLine(ins[i]) && ins[i] in links ==> outs[i] == links[ins[i]]) &&
            (forall i :: 0 <= i < |ins| && !(IsSegmentLine(ins[i]) && ins[i] in links) ==> outs[i] == ins[i]) &&
            (forall i :: 0 <= i < |ins| && (|ins[i]| == 0 || ins[i][0] == '#') ==> outs[i] == ins[i])
  {
    var ins := SplitLines(content);
    var mid := RewriteLines(ins, links);
    assert forall i :: 0 <= i < |mid| ==> NoNewline(mid[i]);
    SplitJoin(mid);
  }

  /** A rewrite with no links returns the playlist unchanged. */
  lemma RewriteWithoutLinksIsIdentity(content: string)
    ensures RewritePlaylist(content, map[]) == content
  {
    var ins := SplitLines(content);
    assert RewriteLines(ins, map[]) == ins;
    JoinSplit(content);
  }

  /** Segment files of a safe id are exactly what the rewrite looks for. */
  lemma SegmentNameIsSegmentLine(id: string, n: nat)
    requires SafeName(id)
    ensures IsSegmentLine(SegmentName(id, n))
  {
    var name := SegmentName(id, n);
    assert name[0] == id[0];
  }

  // ---------------------------------------------------------------------
  // upload_hls_folder
  // ---------------------------------------------------------------------

  /** A completed folder upload: the link map, the playlist text that was
      uploaded, and the remote paths written, in order. */
  datatype Published = Published(links: map<string, string>, playlist: string, uploads: seq<string>)

  /** The remote paths of the files `names`, in order: each lies in the
      folder of `id` and gives back its file name, so distinct files never
      share a remote path. */
  function RemotePaths(id: string, names: seq<string>): (ps: seq<string>)
    ensures |ps| == |names|
    ensures forall i :: 0 <= i < |names| ==> ps[i] == RemotePath(id, names[i])
    ensures forall i :: 0 <= i < |ps| ==>
              |ps[i]| > |RemoteFolder(id)| && ps[i][..|RemoteFolder(id)| + 1] == RemoteFolder(id) + "/" &&
              ps[i][|RemoteFolder(id)| + 1..] == names[i]
    ensures Distinct(names) ==> Distinct(ps)
  {
    seq(|names|, i requires 0 <= i < |names| => RemotePath(id, names[i]))
  }

  /** `upload_hls_folder` for the folder of `id` holding `segments` and the
      playlist `<id>.m3u8`; `None` when it raises (missing folder, a fatal
      segment, or a failed playlist upload). */
  function UploadHlsFolder(folderExists: bool, id: string, segments: seq<string>, replies: seq<SegmentReply>,
                           playlistText: string, playlistUploaded: bool): (r: Option<Published>)
    requires |segments| == |replies| && Distinct(segments)
    ensures r.Some? <==> folderExists && playlistUploaded && forall i :: 0 <= i < |segments| ==> !Fatal(replies[i])
    ensures r.Some? ==> LinkMap(segments, replies) == Some(r.value.links)
    ensures r.Some? ==> r.value.playlist == RewritePlaylist(playlistText, r.value.links)
    ensures r.Some? ==> (|r.value.uploads| == |segments| + 1 &&
              (forall i :: 0 <= i < |segments| ==> r.value.uploads[i] == RemotePath(id, segments[i])) &&
              r.value.uploads[|segments|] == RemotePath(id, PlaylistName(id)))
  {
    if !folderExists then None
    else match LinkMap(segments, replies)
      case None => None
      case Some(links) =>
        if !playlistUploaded then None
        else Some(Published(links, RewritePlaylist(playlistText, links),
                            RemotePaths(id, segments) + [RemotePath(id, PlaylistName(id))]))
  }

  /** Every file of a published stream lands under `/hls/<id>/`. */
  lemma UploadsStayInFolder(folderExists: bool, id: string, segments: seq<string>, replies: seq<SegmentReply>,
                            playlistText: string, playlistUploaded: bool)
    requires |segments| == |replies| && Distinct(segments)
    ensures var r := UploadHlsFolder(folderExists, id, segments, replies, playlistText, playlistUploaded);
            r.Some? ==> forall p :: p in r.value.uploads ==> p[..|RemoteFolder(id)| + 1] == RemoteFolder(id) + "/"
  {
  }

  /** The links a reply can produce hold no line break. */
  predicate SingleLineLinks(r: SegmentReply) {
    (r.link.Created? ==> NoNewline(r.link.url)) &&
    (r.listing.Listed? ==> forall k :: 0 <= k < |r.listing.urls| ==> NoNewline(r.listing.urls[k]))
  }

  lemma ResolvedLinkIsSingleLine(r: SegmentReply)
    requires SingleLineLinks(r) && ResolveSegmentLink(r.link, r.listing).Linked?
    ensures NoNewline(ResolveSegmentLink(r.link, r.listing).url)
  {
    if r.link.Created? {
      RawLinkKeepsLine(r.link.url);
    } else {
      RawLinkKeepsLine(r.listing.urls[0]);
    }
  }

  /** Every value of a link map built from single-line links is one line. */
  lemma LinkMapIsSingleLine(names: seq<string>, replies: seq<SegmentReply>)
    requires |names| == |replies| && Distinct(names)
    requires forall j :: 0 <= j < |replies| ==> SingleLineLinks(replies[j])
    requires LinkMap(names, replies).Some?
    ensures forall k :: k in LinkMap(names, replies).value ==> NoNewline(LinkMap(names, replies).value[k])
  {
    var links := LinkMap(names, replies).value;
    forall k | k in links
      ensures NoNewline(links[k])
    {
      var j :| 0 <= j < |names| && names[j] == k;
      ResolvedLinkIsSingleLine(replies[j]);
    }
  }

  /** For a packaged stream whose playlist lists its segment files, every
      segment line whose link resolved is replaced by that link. */
  lemma PublishedPlaylistLinksSegments(id: string, count: nat, replies: seq<SegmentReply>,
                                       playlistText: string, i: nat, n: nat)
    requires SafeName(id) && |replies| == count
    requires forall j :: 0 <= j < count ==> !Fatal(replies[j]) && SingleLineLinks(replies[j])
    requires i < |SplitLines(playlistText)| && n < count
    requires SplitLines(playlistText)[i] == SegmentName(id, n)
    requires ResolveSegmentLink(replies[n].link, replies[n].listing).Linked?
    ensures Distinct(Segments(id, count)) &&
            var r := UploadHlsFolder(true, id, Segments(id, count), replies, playlistText, true);
            r.Some? && i < |SplitLines(r.value.playlist)| &&
            SplitLines(r.value.playlist)[i] == ResolveSegmentLink(replies[n].link, replies[n].listing).url
  {
    var names := Segments(id, count);
    SegmentsDistinct(id, count);
    assert Distinct(names);
    var lm := LinkMap(names, replies);
    assert lm.Some? by {
      assert forall j :: 0 <= j < |names| ==> !Fatal(replies[j]);
    }
    var links := lm.value;
    LinkMapIsSingleLine(names, replies);
    var line := SplitLines(playlistText)[i];
    assert line == names[n];
    SegmentNameIsSegmentLine(id, n);
    assert line in links && links[line] == ResolveSegmentLink(replies[n].link, replies[n].listing).url;
    RewriteKeepsLines(playlistText, links);
    var r := UploadHlsFolder(true, id, names, replies, playlistText, true);
    assert r == Some(Published(links, RewritePlaylist(playlistText, links),
                               RemotePaths(id, names) + [RemotePath(id, PlaylistName(id))]));
  }

  /** `?dl=0` → `?raw=1` introduces no newline. */
  lemma {:induction false} RawLinkKeepsLine(url: string)
    requires NoNewline(url)
    ensures NoNewline(RawLink(url))
  {
    ReplaceKeepsLine(url, "?dl=0", "?raw=1");
  }

  lemma {:induction false} ReplaceKeepsLine(s: string, p: string, q: string)
    requires |p| > 0 && NoNewline(s) && NoNewline(q)
    ensures NoNewline(ReplaceAll(s, p, q))
    decreases |s|
  {
    if |s| >= |p| {
      if s[..|p|] == p {
        ReplaceKeepsLine(s[|p|..], p, q);
      } else {
        ReplaceKeepsLine(s[1..], p, q);
      }
    }
  }
}

=== FILE: Text.dfy ===
/** String operations the bots rely on, written over `seq<char>`:
    Python's substring test, `str.isspace`, `str.strip`, `str.replace`,
    `%05d` formatting, and the line structure a multi-line regex sees. */
module Text {

  /** `p` occurs in `s` starting at index `i`. */
  predicate OccursAt(s: string, i: int, p: string) {
    0 <= i && i + |p| <= |s| && s[i..i + |p|] == p
  }

  /** Python's `p in s` for strings. */
  predicate Contains(s: string, p: string) {
    exists i | 0 <= i <= |s| - |p| :: OccursAt(s, i, p)
  }

  predicate EndsWith(s: string, suffix: string) {
    |suffix| <= |s| && s[|s| - |suffix|..] == suffix
  }

  /** The characters Python's `str.isspace` (and so the regex class `\s`
      on a `str` pattern) accepts. */
  predicate IsSpace(c: char) {
    var n := c as int;
    (0x09 <= n <= 0x0D) || (0x1C <= n <= 0x20) || n == 0x85 || n == 0xA0 ||
    n == 0x1680 || (0x2000 <= n <= 0x200A) || n == 0x2028 || n == 0x2029 ||
    n == 0x202F || n == 0x205F || n == 0x3000
  }

  /** ASCII lower-casing of one character. */
  function LowerChar(c: char): (d: char)
    ensures 'A' <= c <= 'Z' ==> 'a' <= d <= 'z'
    ensures !('A' <= c <= 'Z') ==> d == c
  {
    if 'A' <= c <= 'Z' then (c as int + 32) as char else c
  }

  function Lower(s: string): (r: string)
    ensures |r| == |s|
    ensures forall i :: 0 <= i < |s| ==> r[i] == LowerChar(s[i])
  {
    if |s| == 0 then "" else [LowerChar(s[0])] + Lower(s[1..])
  }

  /** The first index at or after `i` that does not hold whitespace, or
      `|s|` when there is none. */
  function SkipSpace(s: string, i: nat): (j: nat)
    requires i <= |s|
    ensures i <= j <= |s|
    ensures forall k :: i <= k < j ==> IsSpace(s[k])
    ensures j < |s| ==> !IsSpace(s[j])
    decreases |s| - i
  {
    if i < |s| && IsSpace(s[i]) then SkipSpace(s, i + 1) else i
  }

  /** The end of `s[lo..hi]` once its trailing whitespace is dropped. */
  function SkipSpaceBack(s: string, lo: nat, hi: nat): (j: nat)
    requires lo <= hi <= |s|
    ensures lo <= j <= hi
    ensures forall k :: j <= k < hi ==> IsSpace(s[k])
    ensures lo < j ==> !IsSpace(s[j - 1])
    decreases hi
  {
    if lo < hi && IsSpace(s[hi - 1]) then SkipSpaceBack(s, lo, hi - 1) else hi
  }

  /** Python's `str.strip()`: the longest infix that neither starts nor
      ends with whitespace, obtained by removing only whitespace. */
  function Strip(s: string): (r: string)
    ensures |r| > 0 ==> !IsSpace(r[0]) && !IsSpace(r[|r| - 1])
    ensures exists a, b :: StripWitness(s, a, b) && r == s[a..b]
  {
    var a := SkipSpace(s, 0);
    var b := SkipSpaceBack(s, a, |s|);
    assert StripWitness(s, a, b);
    s[a..b]
  }

  /** Stripping twice is stripping once. */
  lemma StripIdempotent(s: string)
    ensures Strip(Strip(s)) == Strip(s)
  {
    var r := Strip(s);
    if |r| > 0 {
      assert SkipSpace(r, 0) == 0;
      assert SkipSpaceBack(r, 0, |r|) == |r|;
      assert r[0..|r|] == r;
    }
  }

  /** `s[a..b]` is obtained from `s` by removing whitespace only. */
  predicate StripWitness(s: string, a: int, b: int) {
    0 <= a <= b <= |s| &&
    (forall i :: 0 <= i < a ==> IsSpace(s[i])) &&
    (forall i :: b <= i < |s| ==> IsSpace(s[i]))
  }

  /** Python's `s.replace(p, q)`: every leftmost, non-overlapping occurrence
      of the non-empty pattern `p` is replaced by `q`. */
  function ReplaceAll(s: string, p: string, q: string): (r: string)
    requires |p| > 0
    ensures !Contains(s, p) ==> r == s
    decreases |s|
  {
    if |s| < |p| then s
    else if s[..|p|] == p then
      assert OccursAt(s, 0, p);
      q + ReplaceAll(s[|p|..], p, q)
    else
      assert forall i :: 0 <= i <= |s[1..]| - |p| && OccursAt(s[1..], i, p) ==> OccursAt(s, i + 1, p);
      [s[0]] + ReplaceAll(s[1..], p, q)
  }

  // ---------------------------------------------------------------------
  // Decimal numerals and zero padding (Python's "%05d")
  // ---------------------------------------------------------------------

  predicate IsDigit(c: char) { '0' <= c <= '9' }

  predicate AllDigits(s: string) {
    forall i :: 0 <= i < |s| ==> IsDigit(s[i])
  }

  function DigitChar(d: nat): (c: char)
    requires d < 10
    ensures IsDigit(c) && c as int - '0' as int == d
  {
    ('0' as int + d) as char
  }

  function DigitValue(c: char): (d: nat)
    requires IsDigit(c)
    ensures d < 10
  {
    c as int - '0' as int
  }

  /** The shortest decimal numeral of `n`. */
  function Decimal(n: nat): (s: string)
    ensures |s| >= 1 && AllDigits(s)
  {
    if n < 10 then [DigitChar(n)] else Decimal(n / 10) + [DigitChar(n % 10)]
  }

  /** The value of a numeral; leading zeros are allowed. */
  function ParseDecimal(s: string): nat
    requires AllDigits(s)
  {
    if |s| == 0 then 0 else ParseDecimal(s[..|s| - 1]) * 10 + DigitValue(s[|s| - 1])
  }

  function Zeros(k: nat): (z: string)
    ensures |z| == k && AllDigits(z)
    ensures forall i :: 0 <= i < k ==> z[i] == '0'
  {
    if k == 0 then "" else Zeros(k - 1) + "0"
  }

  /** `s` left-padded with zeros to at least `width` characters. */
  function ZeroPad(s: string, width: nat): (r: string)
    ensures |r| == if |s| >= width then |s| else width
    ensures AllDigits(s) ==> AllDigits(r)
    ensures EndsWith(r, s)
  {
    if |s| >= width then s else Zeros(width - |s|) + s
  }

  /** `printf("%05d", n)` for a non-negative `n`. */
  function Pad5(n: nat): (r: string)
    ensures |r| >= 5 && AllDigits(r)
  {
    ZeroPad(Decimal(n), 5)
  }

  lemma {:induction false} ParseDecimalOfDecimal(n: nat)
    ensures ParseDecimal(Decimal(n)) == n
  {
    if n >= 10 {
      var s := Decimal(n);
      assert s[..|s| - 1] == Decimal(n / 10);
      ParseDecimalOfDecimal(n / 10);
    }
  }

  lemma {:induction false} LeadingZerosIgnored(k: nat, s: string)
    requires AllDigits(s)
    ensures ParseDecimal(Zeros(k) + s) == ParseDecimal(s)
    decreases k, |s|
  {
    if |s| == 0 {
      assert Zeros(k) + s == Zeros(k);
      ZerosParseToZero(k);
    } else {
      var t := Zeros(k) + s;
      assert t[..|t| - 1] == Zeros(k) + s[..|s| - 1];
      LeadingZerosIgnored(k, s[..|s| - 1]);
    }
  }

  lemma {:induction false} ZerosParseToZero(k: nat)
    ensures ParseDecimal(Zeros(k)) == 0
  {
    if k > 0 {
      var z := Zeros(k);
      assert z[..|z| - 1] == Zeros(k - 1) && z[|z| - 1] == '0';
      ZerosParseToZero(k - 1);
    }
  }

  /** Round trip: the five-digit padded numeral reads back as `n`. */
  lemma Pad5RoundTrip(n: nat)
    ensures ParseDecimal(Pad5(n)) == n
  {
    var d := Decimal(n);
    ParseDecimalOfDecimal(n);
    if |d| < 5 {
      LeadingZerosIgnored(5 - |d|, d);
    }
  }

  // ---------------------------------------------------------------------
  // Lines: the structure a `re.MULTILINE` pattern sees
  // ---------------------------------------------------------------------

  /** Index of the first newline, or `|s|` when there is none. */
  function LineEnd(s: string): (k: nat)
    ensures k <= |s|
    ensures forall j :: 0 <= j < k ==> s[j] != '\n'
    ensures k < |s| ==> s[k] == '\n'
  {
    if |s| == 0 || s[0] == '\n' then 0 else 1 + LineEnd(s[1..])
  }

  predicate NoNewline(s: string) {
    forall j :: 0 <= j < |s| ==> s[j] != '\n'
  }

  /** The lines of `s`, split at every `\n` (a trailing newline yields a
      final empty line). */
  function SplitLines(s: string): (ls: seq<string>)
    ensures |ls| >= 1
    ensures forall i :: 0 <= i < |ls| ==> NoNewline(ls[i])
    decreases |s|
  {
    var k := LineEnd(s);
    if k == |s| then [s] else [s[..k]] + SplitLines(s[k + 1..])
  }

  /** The inverse of `SplitLines`: lines glued with `\n`. */
  function JoinLines(ls: seq<string>): string
  {
    if |ls| == 0 then ""
    else if |ls| == 1 then ls[0]
    else ls[0] + "\n" + JoinLines(ls[1..])
  }

  lemma {:induction false} JoinSplit(s: string)
    ensures JoinLines(SplitLines(s)) == s
    decreases |s|
  {
    var k := LineEnd(s);
    var ls := SplitLines(s);
    if k < |s| {
      var rest := SplitLines(s[k + 1..]);
      assert ls == [s[..k]] + rest;
      assert ls[0] == s[..k] && ls[1..] == rest && |ls| >= 2;
      assert JoinLines(ls) == s[..k] + "\n" + JoinLines(rest);
      JoinSplit(s[k + 1..]);
      assert s == s[..k] + "\n" + s[k + 1..];
    } else {
      assert ls == [s];
    }
  }

  lemma {:induction false} SplitJoin(ls: seq<string>)
    requires |ls| >= 1
    requires forall i :: 0 <= i < |ls| ==> NoNewline(ls[i])
    ensures SplitLines(JoinLines(ls)) == ls
  {
    if |ls| == 1 {
      LineEndOfLine(ls[0], "");
      assert ls[0] + "" == ls[0];
    } else {
      var tail := JoinLines(ls[1..]);
      var s := ls[0] + ("\n" + tail);
      assert s == JoinLines(ls);
      LineEndOfLine(ls[0], "\n" + tail);
      assert s[..|ls[0]|] == ls[0];
      assert s[|ls[0]| + 1..] == tail;
      assert LineEnd(s) == |ls[0]| < |s|;
      assert SplitLines(s) == [s[..|ls[0]|]] + SplitLines(s[|ls[0]| + 1..]);
      SplitJoin(ls[1..]);
      assert ls == [ls[0]] + ls[1..];
    }
  }

  lemma {:induction false} LineEndOfLine(line: string, rest: string)
    requires NoNewline(line)
    requires |rest| == 0 || rest[0] == '\n'
    ensures LineEnd(line + rest) == |line|
    decreases |line|
  {
    if |line| > 0 {
      assert (line + rest)[1..] == line[1..] + rest;
      LineEndOfLine(line[1..], rest);
    } else {
      assert line + rest == rest;
    }
  }
}
